=== FILE: README.md ===
# Run combiner decision logic in Dafny

The run combiner watches an inbox folder of sequencing runs. Each run directory
holds `.gz` fastq fragments that a sample was split into across lanes. For every
run that is not yet listed in the inbox's `.completed` file, the combiner checks
that the run is writable and that its md5 sums match. It then groups the
fragments by sample key and read direction, derives one output name per group,
merges the group, and appends the run's path to `.completed`. A separate
validator checks the YAML configuration for its required sections and keys.

This project models that decision logic as pure functions over immutable
values, and proves what the logic guarantees:

- `FileNames` scans fragment names. It has explicit scanners with Python `re.search`
  semantics for `_(S\d+)_` (sample key), `_(R\d+)_` (read token), `_R1_` (read-1
  test) and `(.+?)_` (experiment name).
- `Grouping` models `GroupSamples`: bucketing by sample key, then the read-1/read-2
  split, and the crash on a name without a key.
- `Merge` models the part of `MergeFiles` that decides something: the output name
  built from a group's first file, the exception raised before the `try`, and
  the remnant test.
- `Tracker` models the `.completed` store as text. Reading it back is
  `[line.strip() for line in f]`; marking a run appends `dir + "\n"`.
- `Reconcile` models one pass of `main`. It takes a directory listing, the store
  text and three oracles: permission, md5 status and the `.gz` names of a run.
  It produces the ordered events (unwritable notices, md5 notices, `MergeFiles`
  calls, completion marks), the new store text, and the exception that stopped
  the pass, if any.
- `Config` models the current validator, `check_config_file.check_config`, and
  the older copy in `run_combiner.py`, which is the one `main` actually calls.
- `Text` and `Wrappers` hold the small string helpers and the `Option`/`Result` types.

Behaviours of the scripts that the proofs make explicit:

- A run path that starts or ends with whitespace (a directory name ending in a
  space, say, or an `in_folder` starting with one) is never read back from
  `.completed` as itself, so such a run is never recognised as completed
  (`Tracker.PaddedNeverCompleted`). A name with only leading whitespace is
  harmless under a non-empty inbox path, since it sits inside the joined run path.
- A merged output `A_S1_R1.fastq.gz` left in a run directory has a sample key
  but no `_R1_` and no `_R<digits>_` token. On a later pass it lands in a read-2
  group, and as the first name of a group it makes the name derivation raise
  (`Merge.RemnantExample`). Outputs now go to `<run>/Merged/`
  (run_combiner.py:146-147), which the `*.gz` listing of the run directory (100)
  does not reach, so such a file comes from an older layout that wrote outputs
  into the run directory itself, as the comment at 159 suggests.
- A sample whose fragments are all read-1 (or all read-2) yields an empty group.
  Line 142 raises on it and the whole pass stops (`Reconcile.OneSidedSampleAborts`).
- Appending to a store whose last line has no line feed joins two names on one
  line (`Tracker.UnterminatedStoreJoins`). The read-back lemmas therefore require
  a terminated store.
- The older `check_config` raises `TypeError` rather than `KeyError` on a blank
  email or runs section (`Config.LegacyBlankIsTypeError`). It can never reach its
  `log_file` test, so it accepts a blank logging section and one without
  `log_file` (`Config.LegacyAccepts`), and it accepts configurations the newer
  validator rejects (`Config.LegacyAcceptsMore`).

## Model

| member | source | states |
|---|---|---|
| Text.StripFacts | run_combiner.py:76 | `strip()` returns the input with a whitespace-only prefix and suffix removed, leaves no whitespace at either end, and leaves an unpadded string unchanged |
| Text.Join | run_combiner.py:65 | an absolute name replaces the directory path; a relative name follows the directory path directly exactly when that path is empty or ends in `/`, and otherwise after exactly one `/`; the result ends with the name |
| FileNames.TokenSpec | run_combiner.py:113 | `Token` finds `_<c><digits>_` exactly when one exists, reports the leftmost match's group, and the group is `c` followed by at least one digit |
| FileNames.IsRead1 | run_combiner.py:120 | the read-1 test holds exactly when `_R1_` occurs somewhere in the name |
| FileNames.ExperimentNameSpec | run_combiner.py:142 | `(.+?)_` matches exactly when some match exists, and the leftmost match gives a non-empty, single-line group with no `_` after its first character |
| Grouping.SelectMembers | run_combiner.py:112-125 | a name is in the reference selection for key `k` and read flag `r1` exactly when it is in the input with that key and flag |
| Grouping.SampleBuckets | run_combiner.py:112-114 | a failure names a name of the input that has no sample key |
| Grouping.SampleBucketsSpec | run_combiner.py:112-114 | the first loop fails exactly when some name has no sample key and then names the first such name; otherwise each bucket holds the names of its key in input order, and the buckets hold every name once |
| Grouping.SplitReadsSpec | run_combiner.py:116-125 | the `i`-th read-1 and read-2 lists are the `i`-th bucket's names with and without `_R1_` |
| Grouping.GroupSamples | run_combiner.py:126 | a successful result has the single key `currentDir[0]` |
| Grouping.GroupSamplesSpec | run_combiner.py:103-127 | grouping fails exactly when a name has no sample key, naming the first; otherwise, for each distinct key in some order, `read1[i]` and `read2[i]` are that key's read-1 and read-2 names in input order, and every name lands in exactly one list |
| Grouping.GroupsHomogeneous | run_combiner.py:113-125 | every name in `read1[i]` or `read2[i]` has key `keys[i]`; read-1 lists hold only `_R1_` names and read-2 lists only names without it |
| Grouping.GroupCount | run_combiner.py:116-125 | there are as many read-1 lists, and as many read-2 lists, as distinct sample keys |
| Grouping.SelectConcat | run_combiner.py:114 | a group of a concatenated input is the group of the first part followed by the group of the second, so the input order is kept |
| Merge.MergedName | run_combiner.py:142-145 | the name is derived exactly when experiment name, sample key and read token all match; a failure names the first file; a derived name ends in `_<read token>.fastq` |
| Merge.MergeFiles | run_combiner.py:142-159 | an empty group or an underivable name raises; otherwise the call records the directory, the group and the name, and the group is skipped exactly when it contains `<name>.gz` |
| Merge.KeyedNameHasExperiment | run_combiner.py:142-143 | a name that has a sample key always has an experiment name |
| Merge.LeadingKeyIsSampleKey | run_combiner.py:142-143 | when the experiment name itself reads `_S<digits>`, that is the sample key |
| Merge.MergedNameParts | run_combiner.py:145 | the output name is experiment `_` sample `_` read `.fastq`, with the shapes the scanners guarantee |
| Merge.MergedNameParsesBack | run_combiner.py:142-145 | the output name's own experiment name and sample key are those of the group's first file |
| Merge.Read1HasReadToken | run_combiner.py:120-144 | every name that passes the read-1 test has a read token |
| Merge.FragmentExample | run_combiner.py:142-145 | `A_S1_L001_R1_001.fastq.gz` gives `A_S1_R1.fastq` |
| Merge.RemnantExample | run_combiner.py:120-145 | `A_S1_R1.fastq.gz` is not read-1, has sample key `S1` and makes the name derivation raise for lack of a read token |
| Tracker.GetCompleted | run_combiner.py:71-77 | every entry read back is stripped: no whitespace at either end |
| Tracker.CompletedEntries | run_combiner.py:71-77 | every entry read back is one stripped line, and only an empty store reads back empty |
| Tracker.UpdateCompleted | run_combiner.py:80-85 | the store keeps its old text as a prefix, then holds exactly the name, then one line feed |
| Tracker.LinesAppend | run_combiner.py:76-85 | appending a line and its feed to a terminated text adds exactly that line to the lines read back |
| Tracker.ReadBackAppended | run_combiner.py:71-85 | for a terminated store and a clean name, the entries read back after the append are the old entries followed by the name |
| Tracker.ReadBackAll | run_combiner.py:71-85 | after appending several clean names in turn, the store reads back as the old entries followed by those names in order |
| Tracker.UnterminatedStoreJoins | run_combiner.py:71-85 | appending `b` to the store `a`, which has no final line feed, reads back as the single entry `ab` |
| Tracker.PaddedNeverCompleted | run_combiner.py:71-77 | a name with surrounding whitespace is never among the entries read back from any store |
| Reconcile.ListDirMembers | run_combiner.py:59-69 | a path is listed exactly when some non-hidden directory entry joins to it |
| Reconcile.ListDirConcat | run_combiner.py:64-68 | the listing is scanned in order: listing two parts lists each part in turn |
| Reconcile.NotCompleted | run_combiner.py:238 | a directory is a candidate exactly when it is listed and not among the completed entries |
| Reconcile.NotCompletedConcat | run_combiner.py:238 | the candidates keep the listing order: filtering two parts filters each part in turn |
| Reconcile.PermissionSplit | run_combiner.py:238-241 | the writable list holds exactly the permitted candidates and the unwritable list the others, and together they are the candidates |
| Reconcile.WithPermissionConcat | run_combiner.py:238-241 | the writable and unwritable lists each keep the candidates' order: splitting two parts splits each part in turn |
| Reconcile.MergeGroupsFacts | run_combiner.py:258-261 | one call per group in order, each the `MergeFiles` record of its group, stopping exactly at the first group whose name derivation raises |
| Reconcile.ProcessRun | run_combiner.py:251-268 | the store gains this run's line when its md5 check passes and nothing raises, and is otherwise unchanged |
| Reconcile.ProcessRunFacts | run_combiner.py:250-268 | a run's events are all about it; it is marked, and the store gains its line, exactly when it succeeds; the pass stops exactly when a checked-out run does not succeed; an md5 mismatch gives one notice only; a mark comes last, right after one call per group |
| Reconcile.FirstAbort | run_combiner.py:250-263 | the index of the first run whose md5 check passes and whose grouping or merging raises, or the number of runs when there is none |
| Reconcile.ProcessRuns | run_combiner.py:250-268 | the loop over the writable runs only appends to the store: the old text stays a prefix |
| Reconcile.ProcessRunsFacts | run_combiner.py:250-268 | the loop stops at the first aborting run, marks exactly the succeeding runs before it, and the store gains exactly the marked runs' lines |
| Reconcile.RunsMarksPreceded | run_combiner.py:258-262 | in the loop's events, every mark comes right after its run's merge calls |
| Reconcile.RunsMarksFinal | run_combiner.py:250-263 | with distinct runs, no event about a run follows its mark |
| Reconcile.NoticesFacts | run_combiner.py:244-248 | one unwritable notice per unwritable candidate, in order, and no marks |
| Reconcile.Reconcile | run_combiner.py:236-268 | a pass only appends to the store: the old text stays a prefix |
| Reconcile.ReconcileScope | run_combiner.py:236-248 | the store only gains the marked runs' lines; every event is about a listed, not yet completed run; unwritable notices go out exactly for the unwritable candidates; every other event is about a writable run |
| Reconcile.ReconcileMarks | run_combiner.py:236-263 | the pass stops exactly at the first writable candidate that is checked out yet raises, and marks exactly the succeeding writable candidates before it; a pass that does not stop marks exactly the listed, not completed, writable, succeeding runs |
| Reconcile.ReconcileOrder | run_combiner.py:250-263 | each mark of a pass comes right after its run's merge calls; with a repetition-free listing, nothing happens to a run after its mark |
| Reconcile.SecondPassSkipsMarked | run_combiner.py:236-263 | a later pass on the store the first pass wrote, over any listing and with any answers from the external checks, has no event of any kind for a run the first pass marked, given a terminated store and marked paths that are single unpadded lines |
| Reconcile.EmptyRunCompletes | run_combiner.py:254-263 | a checked-out run with no `.gz` names is marked completed with no merge call |
| Reconcile.OneSidedSampleAborts | run_combiner.py:142 | a sample with only read-1 or only read-2 names stops the pass, and its run is not marked |
| Config.FirstMissingSpec | check_config_file.py:37-52 | the key reported is the first missing one in test order, and none is reported exactly when all are present |
| Config.SectionProblemSpec | check_config_file.py:12-27 | a section raises nothing exactly when it is present, not blank and has its keys; otherwise it reports absent, then blank, then the first missing key |
| Config.FirstProblemSpec | check_config_file.py:12-82 | nothing is reported exactly when every section passes; otherwise the report is the complaint of the first failing section |
| Config.CheckConfig | check_config_file.py:9-82 | the newer validator never raises `TypeError`: every failure is a `KeyError` |
| Config.CheckConfigAccepts | check_config_file.py:12-82 | the validator returns normally exactly when email has admin and parse_ss, runs has its four keys, logging has log_file and verify_transfer has use_md5 and md5_path, none of them blank |
| Config.CheckConfigFirstFailure | check_config_file.py:12-82 | every failure is a `KeyError`, and it is the complaint of the first failing section in the order email, runs, logging, verify_transfer |
| Config.CheckConfigMonotone | check_config_file.py:9-82 | adding sections or keys to an accepted configuration keeps it accepted |
| Config.LegacyCheckConfig | run_combiner.py:191-221 | the older check raises `TypeError` only for a present but blank email or runs section |
| Config.LegacyAccepts | run_combiner.py:191-221 | the older check returns normally exactly when email has admin, runs has its three keys, and a logging section exists, blank or not |
| Config.LegacyBlankIsTypeError | run_combiner.py:198-206 | a blank email section, or a blank runs section after a good email, raises `TypeError` |
| Config.LegacyIsWeaker | run_combiner.py:191-221 | whatever the newer validator accepts, the older one accepts too |
| Config.LegacyAcceptsMore | run_combiner.py:216-221 | a configuration with a blank logging section and neither parse_ss, runs_folder nor verify_transfer passes the older check and fails the newer one on parse_ss |

## Left out

- Mail and logging (`SendMail`, the `logging` calls, `default_logger`, run_combiner.py:48-57, 181-188) become the `Unwritable` and `Md5Mismatch` events, or are dropped where they only log. For an ASCII path their message formatting cannot raise; a failure to start `sendmail` is listed below, and non-ASCII paths are covered by the text-encoding line.
- `Checkmd5` and `CheckPermissions` (run_combiner.py:88-94, 129-134) run external programs and `os.access`; their answers are the `md5Status` and `permitted` oracles.
- `FilesToBeMerged` (run_combiner.py:96-100) is the `gzFiles` oracle: a given list of names. glob's own ordering and hidden-file rules are not modelled.
- The byte-level work of `MergeFiles` (run_combiner.py:146-175) is left out: `mkdir`, `touch`, `gzip` and `rm` are launched without waiting, and the archive contents are opaque. A call is recorded as its directory, group, output name and skip decision. The `try` at 149 swallows any error inside it, so the model lets only the name derivation (142-145) stop the pass.
- Failures to start a program or open a file are not modelled. Each raises out of `main` and stops the pass: the `mkdir` `Popen` before the `try` (run_combiner.py:147), the `Popen` in `Checkmd5` (92), the `sendmail` `Popen` in `SendMail` (56, reached from 247 and 267), and the store's `open` (75, 84). The oracles always answer, and a mark always reaches the store.
- `Check` (run_combiner.py:27-46) probes and creates files. The store is given as text. Its `dirPath + name` spelling, unlike the `os.path.join` of the store readers, is not modelled.
- `delete_samples` (run_combiner.py:177-179) does nothing, and so `keep_original_files` has no effect.
- Command-line parsing and YAML loading (run_combiner.py:272-288, check_config_file.py:84-91) are left out, as is `main` skipping everything for a `None` config (224). So is the read of `config_["logging"]["log_file"]` (233) after the check. It raises `TypeError` for a blank logging section and `KeyError` for a logging section without `log_file`, two configurations `Config.LegacyCheckConfig` accepts; the configuration of `Config.LegacyAcceptsMore` passes the older check and then fails there. The read of `config_["runs"]["in_folder"]` (230) cannot raise once the older check has passed.
- Config section values that are neither a mapping nor blank (a list or a string, for which `in` means something else) are not modelled; a section is either blank or a set of keys.
- The text of error messages is not modelled, only which check raises.
- Text encoding is not modelled: names and paths are sequences of characters, while Python 2 keeps byte `str` and `unicode` apart. YAML loads a non-ASCII `in_folder` as `unicode`, so the listed paths are `unicode` too. The first candidate then makes the pass raise `UnicodeEncodeError` in the `str.format` of its log message (run_combiner.py:246 for an unwritable run, 251 for a writable one, and likewise 266), and the test at 238 never matches the store's byte lines. A non-ASCII inbox path therefore stops the pass, where the model's pass carries on.
- Python 2 dictionary iteration order is unspecified. `GroupSamples` is stated for some order of the distinct keys. The model fills buckets in first-appearance order of the keys. That choice fixes the order of a run's merge calls in `ProcessRunFacts`, `MergeGroupsFacts` and `ReconcileOrder`, and so which groups are merged before a failing group stops the pass. The grouping properties in `Grouping.GroupSamplesSpec`, the marked set in `Reconcile.ReconcileMarks` and the store contents do not depend on it.
- `os.listdir` order is taken as given by the listing.
- `Grouping.GroupSamples`: its own contract states only the single result key; the partition, order and failure facts are in `Grouping.GroupSamplesSpec`.
- `Reconcile.ReconcileOrder`: the mark-after-its-run's-calls property holds whenever the listing repeats no name; `MarksFinal` is not stated for listings with repeated names.
- `Tracker.ReadBackAppended`: it is stated only for a store that is empty or ends in a line feed, and for a name with no line feed or surrounding whitespace; other stores and names do not read back as the name.

=== FILE: config.dfy ===
/** The two configuration validators: `check_config` in check_config_file.py,
    and the older copy in run_combiner.py that `main` calls. A configuration is
    a map from section name to the section's keys, `None` standing for a blank
    section; only key presence is ever tested. */
module Config {
  import opened Wrappers

  type Section = Option<set<string>>
  type ConfigMap = map<string, Section>

  /** What a `KeyError` complains about. */
  datatype Problem =
    | MissingSection(section: string)
    | BlankSection(section: string)
    | MissingKey(section: string, key: string)

  /** How a validator returns: normally, with a `KeyError`, or with the `TypeError`
      Python raises for `key in None`. */
  datatype Verdict = Accepted | KeyError(problem: Problem) | TypeError(section: string)

  /** A section the validator requires, with its keys in the order they are tested. */
  datatype Requirement = Requirement(section: string, keys: seq<string>)

  /** check_config_file.py:12-82, in the order the checks run. */
  const Required: seq<Requirement> := [
    Requirement("email", ["admin", "parse_ss"]),
    Requirement("runs", ["in_folder", "out_folder", "keep_original_files", "runs_folder"]),
    Requirement("logging", ["log_file"]),
    Requirement("verify_transfer", ["use_md5", "md5_path"])
  ]

  /** The first of `keys` missing from `present`. The `if`s of the email and
      verify_transfer sections and the `elif` chain of runs report the same key:
      the first raise ends the call. */
  function FirstMissing(section: string, present: set<string>, keys: seq<string>): Option<Problem>
  {
    if keys == [] then None
    else if keys[0] !in present then Some(MissingKey(section, keys[0]))
    else FirstMissing(section, present, keys[1..])
  }

  /** One section's checks: absent, then blank, then its keys. */
  function SectionProblem(c: ConfigMap, r: Requirement): Option<Problem>
  {
    if r.section !in c then Some(MissingSection(r.section))
    else match c[r.section]
      case None => Some(BlankSection(r.section))
      case Some(present) => FirstMissing(r.section, present, r.keys)
  }

  function FirstProblem(c: ConfigMap, rs: seq<Requirement>): Option<Problem>
  {
    if rs == [] then None
    else match SectionProblem(c, rs[0])
      case Some(p) => Some(p)
      case None => FirstProblem(c, rs[1..])
  }

  /** `check_config(config_)` (check_config_file.py:9-82). */
  function CheckConfig(c: ConfigMap): (r: Verdict)
    ensures !r.TypeError?
  {
    match FirstProblem(c, Required)
    case None => Accepted
    case Some(p) => KeyError(p)
  }

  /** Section `s` is present, not blank, and has every key of `ks`. */
  predicate HasKeys(c: ConfigMap, s: string, ks: set<string>)
  {
    s in c && c[s].Some? && ks <= c[s].value
  }

  ghost predicate SectionOk(c: ConfigMap, r: Requirement)
  {
    r.section in c && c[r.section].Some? && forall k :: k in r.keys ==> k in c[r.section].value
  }

  /** `p` is the complaint a section's checks raise: absent, else blank, else its
      first missing key in test order. */
  ghost predicate Fails(c: ConfigMap, r: Requirement, p: Problem)
  {
    if r.section !in c then p == MissingSection(r.section)
    else if c[r.section].None? then p == BlankSection(r.section)
    else exists i :: 0 <= i < |r.keys| && p == MissingKey(r.section, r.keys[i]) &&
           r.keys[i] !in c[r.section].value &&
           forall j :: 0 <= j < i ==> r.keys[j] in c[r.section].value
  }

  lemma {:induction false} FirstMissingSpec(section: string, present: set<string>, keys: seq<string>)
    ensures FirstMissing(section, present, keys).None? <==> forall k :: k in keys ==> k in present
    ensures FirstMissing(section, present, keys).Some? ==>
              exists i :: 0 <= i < |keys| && FirstMissing(section, present, keys).value == MissingKey(section, keys[i]) &&
                keys[i] !in present && forall j :: 0 <= j < i ==> keys[j] in present
  {
    if keys != [] {
      FirstMissingSpec(section, present, keys[1..]);
      assert forall k :: k in keys <==> k == keys[0] || k in keys[1..];
      if keys[0] in present && FirstMissing(section, present, keys[1..]).Some? {
        var i :| 0 <= i < |keys[1..]| &&
          FirstMissing(section, present, keys[1..]).value == MissingKey(section, keys[1..][i]) &&
          keys[1..][i] !in present && forall j :: 0 <= j < i ==> keys[1..][j] in present;
        assert keys[i + 1] == keys[1..][i];
        assert forall j :: 1 <= j < i + 1 ==> keys[j] == keys[1..][j - 1];
      }
    }
  }

  lemma SectionProblemSpec(c: ConfigMap, r: Requirement)
    ensures SectionProblem(c, r).None? <==> SectionOk(c, r)
    ensures SectionProblem(c, r).Some? ==> Fails(c, r, SectionProblem(c, r).value)
  {
    if r.section in c && c[r.section].Some? {
      FirstMissingSpec(r.section, c[r.section].value, r.keys);
    }
  }

  lemma {:induction false} FirstProblemSpec(c: ConfigMap, rs: seq<Requirement>)
    ensures FirstProblem(c, rs).None? <==> forall i :: 0 <= i < |rs| ==> SectionOk(c, rs[i])
    ensures FirstProblem(c, rs).Some? ==>
              exists i :: 0 <= i < |rs| && Fails(c, rs[i], FirstProblem(c, rs).value) &&
                forall j :: 0 <= j < i ==> SectionOk(c, rs[j])
  {
    if rs != [] {
      SectionProblemSpec(c, rs[0]);
      FirstProblemSpec(c, rs[1..]);
      assert forall i :: 1 <= i < |rs| ==> rs[i] == rs[1..][i - 1];
      if SectionProblem(c, rs[0]).None? && FirstProblem(c, rs[1..]).Some? {
        var i :| 0 <= i < |rs[1..]| && Fails(c, rs[1..][i], FirstProblem(c, rs[1..]).value) &&
          forall j :: 0 <= j < i ==> SectionOk(c, rs[1..][j]);
        assert Fails(c, rs[i + 1], FirstProblem(c, rs).value);
      }
    }
  }

  /** `check_config` returns normally exactly when all four sections are present
      and not blank and carry their keys. */
  lemma CheckConfigAccepts(c: ConfigMap)
    ensures CheckConfig(c) == Accepted <==>
      && HasKeys(c, "email", {"admin", "parse_ss"})
      && HasKeys(c, "runs", {"in_folder", "out_folder", "keep_original_files", "runs_folder"})
      && HasKeys(c, "logging", {"log_file"})
      && HasKeys(c, "verify_transfer", {"use_md5", "md5_path"})
  {
    FirstProblemSpec(c, Required);
    RequiredSections(c);
    assert (forall i :: 0 <= i < |Required| ==> SectionOk(c, Required[i])) <==>
      SectionOk(c, Required[0]) && SectionOk(c, Required[1]) && SectionOk(c, Required[2]) && SectionOk(c, Required[3]);
  }

  lemma RequiredSections(c: ConfigMap)
    ensures |Required| == 4
    ensures SectionOk(c, Required[0]) <==> HasKeys(c, "email", {"admin", "parse_ss"})
    ensures SectionOk(c, Required[1]) <==>
              HasKeys(c, "runs", {"in_folder", "out_folder", "keep_original_files", "runs_folder"})
    ensures SectionOk(c, Required[2]) <==> HasKeys(c, "logging", {"log_file"})
    ensures SectionOk(c, Required[3]) <==> HasKeys(c, "verify_transfer", {"use_md5", "md5_path"})
  {
    SectionOkHasKeys(c, Required[0], {"admin", "parse_ss"});
    SectionOkHasKeys(c, Required[1], {"in_folder", "out_folder", "keep_original_files", "runs_folder"});
    SectionOkHasKeys(c, Required[2], {"log_file"});
    SectionOkHasKeys(c, Required[3], {"use_md5", "md5_path"});
  }

  lemma SectionOkHasKeys(c: ConfigMap, r: Requirement, ks: set<string>)
    requires ks == set k | k in r.keys
    ensures SectionOk(c, r) <==> HasKeys(c, r.section, ks)
  {
  }

  /** Every failure is a `KeyError`, and it is the complaint of the first section,
      in the order email, runs, logging, verify_transfer, whose checks fail: a
      blank section before any of its keys, and the first missing key in test order. */
  lemma CheckConfigFirstFailure(c: ConfigMap)
    ensures !CheckConfig(c).TypeError?
    ensures CheckConfig(c).KeyError? ==>
              exists i :: 0 <= i < |Required| && Fails(c, Required[i], CheckConfig(c).problem) &&
                forall j :: 0 <= j < i ==> SectionOk(c, Required[j])
  {
    FirstProblemSpec(c, Required);
  }

  /** `d` has every section of `c`, no blank where `c` has keys, and at least `c`'s keys. */
  ghost predicate Extends(c: ConfigMap, d: ConfigMap)
  {
    forall s :: s in c ==> s in d && (c[s].Some? ==> d[s].Some? && c[s].value <= d[s].value)
  }

  /** Adding sections or keys to an accepted configuration keeps it accepted. */
  lemma CheckConfigMonotone(c: ConfigMap, d: ConfigMap)
    requires CheckConfig(c) == Accepted && Extends(c, d)
    ensures CheckConfig(d) == Accepted
  {
    CheckConfigAccepts(c);
    CheckConfigAccepts(d);
  }

  /** The older `check_config` (run_combiner.py:191-221), the one `main` calls.
      Its email and runs key tests run on a blank section too, raising `TypeError`;
      it tests only three runs keys; after `raise KeyError` for a missing logging
      section its `log_file` test can never run; verify_transfer is never looked at. */
  function LegacyCheckConfig(c: ConfigMap): (r: Verdict)
    ensures r.TypeError? ==> (r.section == "email" || r.section == "runs") && r.section in c && c[r.section].None?
  {
    if "email" !in c then KeyError(MissingSection("email"))
    else if c["email"].None? then TypeError("email")
    else if "admin" !in c["email"].value then KeyError(MissingKey("email", "admin"))
    else if "runs" !in c then KeyError(MissingSection("runs"))
    else if c["runs"].None? then TypeError("runs")
    else match FirstMissing("runs", c["runs"].value, ["in_folder", "out_folder", "keep_original_files"])
      case Some(p) => KeyError(p)
      case None =>
        if "logging" !in c then KeyError(MissingSection("logging"))
        else Accepted
  }

  /** The older check returns normally exactly when email has admin, runs has its
      three folder/keep keys, and a logging section exists, blank or not. */
  lemma LegacyAccepts(c: ConfigMap)
    ensures LegacyCheckConfig(c) == Accepted <==>
      && HasKeys(c, "email", {"admin"})
      && HasKeys(c, "runs", {"in_folder", "out_folder", "keep_original_files"})
      && "logging" in c
  {
    if "email" in c && c["email"].Some? && "admin" in c["email"].value && "runs" in c && c["runs"].Some? {
      FirstMissingSpec("runs", c["runs"].value, ["in_folder", "out_folder", "keep_original_files"]);
    }
  }

  /** A blank email or runs section reaches `key in None`, a `TypeError`. */
  lemma LegacyBlankIsTypeError(c: ConfigMap)
    requires "email" in c && (c["email"].None? || ("admin" in c["email"].value && "runs" in c && c["runs"].None?))
    ensures LegacyCheckConfig(c).TypeError?
  {
  }

  /** Whatever the newer check accepts, the older one accepts too. */
  lemma LegacyIsWeaker(c: ConfigMap)
    requires CheckConfig(c) == Accepted
    ensures LegacyCheckConfig(c) == Accepted
  {
    CheckConfigAccepts(c);
    LegacyAccepts(c);
  }

  /** A configuration the older check lets through and the newer rejects: a blank
      logging section, no parse_ss, no runs_folder and no verify_transfer. */
  lemma LegacyAcceptsMore()
    ensures var c := map[
        "email" := Some({"admin"}),
        "runs" := Some({"in_folder", "out_folder", "keep_original_files"}),
        "logging" := None];
      LegacyCheckConfig(c) == Accepted && CheckConfig(c) == KeyError(MissingKey("email", "parse_ss"))
  {
    var c: ConfigMap := map[
        "email" := Some({"admin"}),
        "runs" := Some({"in_folder", "out_folder", "keep_original_files"}),
        "logging" := None];
    LegacyAccepts(c);
    assert "parse_ss" !in c["email"].value;
    assert SectionProblem(c, Required[0]) == Some(MissingKey("email", "parse_ss"));
  }
}

=== FILE: filenames.dfy ===
/** Explicit scanners for the regular expressions run_combiner.py applies to
    fragment file names: `_(S\d+)_`, `_(R\d+)_`, `_R1_` and `(.+?)_`, each with
    Python `re.search` semantics (leftmost match; `\d` is an ASCII digit for a
    Python 2 byte string; `.` matches anything but a line feed). */
module FileNames {
  import opened Wrappers
  import opened Text

  /** End of the maximal run of digits that starts at `i`. */
  function DigitsEnd(s: string, i: nat): (j: nat)
    requires i <= |s|
    ensures i <= j <= |s|
    ensures forall m :: i <= m < j ==> IsDigit(s[m])
    ensures j == |s| || !IsDigit(s[j])
    decreases |s| - i
  {
    if i < |s| && IsDigit(s[i]) then DigitsEnd(s, i + 1) else i
  }

  /** A digit run from `i` that stops at a non-digit `j` ends where `DigitsEnd` says. */
  lemma {:induction false} DigitsEndAt(s: string, i: nat, j: nat)
    requires i <= j < |s|
    requires forall m :: i <= m < j ==> IsDigit(s[m])
    requires !IsDigit(s[j])
    ensures DigitsEnd(s, i) == j
    decreases j - i
  {
    if i < j {
      DigitsEndAt(s, i + 1, j);
    }
  }

  /** `_<c><one or more digits>_` occupies `s[i..j + 1]`; the captured group is `s[i + 1..j]`. */
  ghost predicate TokenAt(s: string, c: char, i: nat, j: nat)
  {
    i + 2 < j < |s| && s[i] == '_' && s[i + 1] == c && s[j] == '_' &&
    forall m :: i + 2 <= m < j ==> IsDigit(s[m])
  }

  /** The closing underscore of a token that starts at `i`, if one does. */
  function TokenEndAt(s: string, c: char, i: nat): (r: Option<nat>)
    ensures r.Some? ==> TokenAt(s, c, i, r.value)
    ensures r.None? ==> forall j: nat :: !TokenAt(s, c, i, j)
  {
    if i + 2 < |s| && s[i] == '_' && s[i + 1] == c then
      var j := DigitsEnd(s, i + 2);
      assert forall j': nat :: TokenAt(s, c, i, j') ==> j' == j by {
        forall j': nat | TokenAt(s, c, i, j') ensures j' == j {
          DigitsEndAt(s, i + 2, j');
        }
      }
      if i + 2 < j < |s| && s[j] == '_' then Some(j) else None
    else None
  }

  /** Leftmost token at or after `from`, as the pair (opening, closing underscore). */
  function FindToken(s: string, c: char, from: nat): (r: Option<(nat, nat)>)
    ensures r.Some? ==> from <= r.value.0 && TokenAt(s, c, r.value.0, r.value.1)
    ensures r.Some? ==> forall i: nat, j: nat :: from <= i < r.value.0 ==> !TokenAt(s, c, i, j)
    ensures r.None? ==> forall i: nat, j: nat :: from <= i ==> !TokenAt(s, c, i, j)
    decreases |s| - from
  {
    if from >= |s| then None
    else match TokenEndAt(s, c, from)
      case Some(j) => Some((from, j))
      case None => FindToken(s, c, from + 1)
  }

  /** `re.search("_(<c>\d+)_", s).group(1)`, or None when the search fails. */
  function Token(s: string, c: char): Option<string>
  {
    match FindToken(s, c, 0)
    case Some((i, j)) => Some(s[i + 1..j])
    case None => None
  }

  /** `Token` finds a token exactly when there is one, reports the leftmost, and
      what it reports is `c` followed by at least one digit. */
  lemma TokenSpec(s: string, c: char)
    ensures var r := Token(s, c);
      && (r.None? <==> forall i: nat, j: nat :: !TokenAt(s, c, i, j))
      && (r.Some? ==> exists i: nat, j: nat :: TokenAt(s, c, i, j) && r.value == s[i + 1..j] &&
                        forall i': nat, j': nat :: i' < i ==> !TokenAt(s, c, i', j'))
      && (r.Some? ==> |r.value| >= 2 && r.value[0] == c &&
                        forall m :: 1 <= m < |r.value| ==> IsDigit(r.value[m]))
  {
    match FindToken(s, c, 0)
    case Some((i, j)) =>
      assert TokenAt(s, c, i, j);
    case None =>
  }

  /** The sample key `S<digits>` of a fragment name (run_combiner.py:113, 143). */
  function SampleKey(s: string): Option<string>
  {
    Token(s, 'S')
  }

  /** The read token `R<digits>` of a fragment name (run_combiner.py:144). */
  function ReadToken(s: string): Option<string>
  {
    Token(s, 'R')
  }

  ghost predicate OccursAt(s: string, pat: string, i: nat)
  {
    i + |pat| <= |s| && s[i..i + |pat|] == pat
  }

  /** Whether `pat` occurs in `s` at or after `from`. */
  function OccursFrom(s: string, pat: string, from: nat): (b: bool)
    ensures b <==> exists i: nat :: from <= i && OccursAt(s, pat, i)
    decreases |s| - from
  {
    if from + |pat| > |s| then false
    else if s[from..from + |pat|] == pat then assert OccursAt(s, pat, from); true
    else OccursFrom(s, pat, from + 1)
  }

  /** `re.search("_R1_", s)` succeeds: the grouping's read-1 test (run_combiner.py:120). */
  function IsRead1(s: string): (b: bool)
    ensures b <==> exists i: nat :: OccursAt(s, "_R1_", i)
  {
    OccursFrom(s, "_R1_", 0)
  }

  /** A match of `(.+?)_` that starts at `p` and whose underscore is at `k`: the
      lazy group takes the fewest characters, none of them a line feed. */
  ghost predicate PrefixAt(s: string, p: nat, k: nat)
  {
    p < k < |s| && s[p] != '\n' && s[k] == '_' &&
    forall m :: p < m < k ==> s[m] != '_' && s[m] != '\n'
  }

  /** First underscore at or after `k`, provided no line feed comes before it. */
  function UnderscoreFrom(s: string, k: nat): (r: Option<nat>)
    ensures r.Some? ==> k <= r.value < |s| && s[r.value] == '_' &&
                        forall m :: k <= m < r.value ==> s[m] != '_' && s[m] != '\n'
    ensures r.None? ==> forall m :: k <= m < |s| && s[m] == '_' ==>
                          exists m' :: k <= m' < m && s[m'] == '\n'
    decreases |s| - k
  {
    if k >= |s| || s[k] == '\n' then None
    else if s[k] == '_' then Some(k)
    else UnderscoreFrom(s, k + 1)
  }

  function PrefixEndAt(s: string, p: nat): (r: Option<nat>)
    ensures r.Some? ==> PrefixAt(s, p, r.value)
    ensures r.None? ==> forall k: nat :: !PrefixAt(s, p, k)
  {
    if p >= |s| || s[p] == '\n' then None
    else UnderscoreFrom(s, p + 1)
  }

  function FindPrefix(s: string, from: nat): (r: Option<(nat, nat)>)
    ensures r.Some? ==> from <= r.value.0 && PrefixAt(s, r.value.0, r.value.1)
    ensures r.Some? ==> forall p: nat, k: nat :: from <= p < r.value.0 ==> !PrefixAt(s, p, k)
    ensures r.None? ==> forall p: nat, k: nat :: from <= p ==> !PrefixAt(s, p, k)
    decreases |s| - from
  {
    if from >= |s| then None
    else match PrefixEndAt(s, from)
      case Some(k) => Some((from, k))
      case None => FindPrefix(s, from + 1)
  }

  /** The experiment name, `re.search("(.+?)_", s).group(1)` (run_combiner.py:142). */
  function ExperimentName(s: string): Option<string>
  {
    match FindPrefix(s, 0)
    case Some((p, k)) => Some(s[p..k])
    case None => None
  }

  /** `ExperimentName` succeeds exactly when `(.+?)_` matches, reports the leftmost
      match, and what it reports is non-empty, one line, with no underscore after
      its first character. */
  lemma ExperimentNameSpec(s: string)
    ensures var r := ExperimentName(s);
      && (r.None? <==> forall p: nat, k: nat :: !PrefixAt(s, p, k))
      && (r.Some? ==> exists p: nat, k: nat :: PrefixAt(s, p, k) && r.value == s[p..k] &&
                        forall p': nat, k': nat :: p' < p ==> !PrefixAt(s, p', k'))
      && (r.Some? ==> r.value != [] && '\n' !in r.value &&
                        forall m :: 1 <= m < |r.value| ==> r.value[m] != '_')
  {
    match FindPrefix(s, 0)
    case Some((p, k)) =>
      assert PrefixAt(s, p, k);
    case None =>
  }
}

=== FILE: grouping.dfy ===
/** `GroupSamples` (run_combiner.py:103-127): partition the `.gz` fragment names
    of one run directory by sample key, then split each sample's list into the
    names that contain `_R1_` and those that do not. */
module Grouping {
  import opened Wrappers
  import opened FileNames

  /** One entry of the `samples` dictionary: a key and the names appended to it. */
  datatype Bucket = Bucket(key: string, files: seq<string>)

  /** The pair `(read1, read2)` stored under the directory in `merge_list`. */
  datatype Groups = Groups(read1: seq<seq<string>>, read2: seq<seq<string>>)

  /** Reference definition: the names with sample key `k` and read-1 flag `r1`, in input order. */
  function Select(files: seq<string>, k: string, r1: bool): seq<string>
    decreases |files|
  {
    if files == [] then []
    else
      var f := files[|files| - 1];
      Select(files[..|files| - 1], k, r1) + (if SampleKey(f) == Some(k) && IsRead1(f) == r1 then [f] else [])
  }

  /** A name is selected exactly when it is in the input with that key and read flag. */
  lemma {:induction false} SelectMembers(files: seq<string>, k: string, r1: bool)
    ensures forall f :: f in Select(files, k, r1) <==> f in files && SampleKey(f) == Some(k) && IsRead1(f) == r1
    decreases |files|
  {
    if files != [] {
      var init := files[..|files| - 1];
      SelectMembers(init, k, r1);
      assert files == init + [files[|files| - 1]];
    }
  }

  /** The names with sample key `k`, in input order: what `samples[k]` holds after the first loop. */
  function WithKey(files: seq<string>, k: string): (r: seq<string>)
    decreases |files|
  {
    if files == [] then []
    else
      var f := files[|files| - 1];
      WithKey(files[..|files| - 1], k) + (if SampleKey(f) == Some(k) then [f] else [])
  }

  /** The names of `fs` whose read-1 test is `r1`, in order: the second loop over one bucket (119-123). */
  function ReadSplit(fs: seq<string>, r1: bool): (r: seq<string>)
    decreases |fs|
  {
    if fs == [] then []
    else
      var f := fs[|fs| - 1];
      ReadSplit(fs[..|fs| - 1], r1) + (if IsRead1(f) == r1 then [f] else [])
  }

  function Keys(bs: seq<Bucket>): (ks: seq<string>)
    ensures |ks| == |bs| && forall i :: 0 <= i < |bs| ==> ks[i] == bs[i].key
  {
    if bs == [] then [] else [bs[0].key] + Keys(bs[1..])
  }

  function AllFiles(bs: seq<Bucket>): seq<string>
  {
    if bs == [] then [] else bs[0].files + AllFiles(bs[1..])
  }

  function Flatten(gs: seq<seq<string>>): seq<string>
  {
    if gs == [] then [] else gs[0] + Flatten(gs[1..])
  }

  /** Some name of `files` carries sample key `k`. */
  ghost predicate KeyOccurs(files: seq<string>, k: string)
  {
    exists f :: f in files && SampleKey(f) == Some(k)
  }

  ghost predicate Distinct(ks: seq<string>)
  {
    forall i, j :: 0 <= i < j < |ks| ==> ks[i] != ks[j]
  }

  /** The state of `samples` after the first loop has consumed `files`. */
  ghost predicate Bucketed(bs: seq<Bucket>, files: seq<string>)
  {
    && Distinct(Keys(bs))
    && (forall k :: k in Keys(bs) <==> KeyOccurs(files, k))
    && (forall i :: 0 <= i < |bs| ==> bs[i].files == WithKey(files, bs[i].key))
  }

  /** Index of the bucket with key `k`, if any. */
  function BucketIndex(bs: seq<Bucket>, k: string): (r: Option<nat>)
    ensures r.Some? ==> r.value < |bs| && bs[r.value].key == k
    ensures r.None? ==> k !in Keys(bs)
  {
    if bs == [] then None
    else if bs[0].key == k then Some(0)
    else match BucketIndex(bs[1..], k)
      case Some(i) => Some(i + 1)
      case None => None
  }

  /** `samples.setdefault(k, []).append(f)` */
  function Insert(bs: seq<Bucket>, k: string, f: string): seq<Bucket>
  {
    match BucketIndex(bs, k)
    case Some(i) => bs[i := Bucket(k, bs[i].files + [f])]
    case None => bs + [Bucket(k, [f])]
  }

  lemma {:induction false} AllFilesAppend(bs: seq<Bucket>, b: Bucket)
    ensures AllFiles(bs + [b]) == AllFiles(bs) + b.files
  {
    if bs != [] {
      assert (bs + [b])[1..] == bs[1..] + [b];
      AllFilesAppend(bs[1..], b);
    }
  }

  lemma {:induction false} AllFilesUpdate(bs: seq<Bucket>, i: nat, f: string)
    requires i < |bs|
    ensures multiset(AllFiles(bs[i := Bucket(bs[i].key, bs[i].files + [f])])) == multiset(AllFiles(bs)) + multiset{f}
  {
    var bs' := bs[i := Bucket(bs[i].key, bs[i].files + [f])];
    if i > 0 {
      assert bs'[1..] == bs[1..][i - 1 := Bucket(bs[i].key, bs[i].files + [f])];
      AllFilesUpdate(bs[1..], i - 1, f);
    } else {
      assert bs'[1..] == bs[1..];
    }
  }

  lemma InsertMultiset(bs: seq<Bucket>, k: string, f: string)
    ensures multiset(AllFiles(Insert(bs, k, f))) == multiset(AllFiles(bs)) + multiset{f}
  {
    match BucketIndex(bs, k)
    case Some(i) =>
      assert bs[i] == Bucket(k, bs[i].files);
      AllFilesUpdate(bs, i, f);
    case None =>
      AllFilesAppend(bs, Bucket(k, [f]));
  }

  lemma {:induction false} WithKeyAbsent(files: seq<string>, k: string)
    requires !KeyOccurs(files, k)
    ensures WithKey(files, k) == []
    decreases |files|
  {
    if files != [] {
      assert files[|files| - 1] in files;
      var init := files[..|files| - 1];
      assert !KeyOccurs(init, k) by {
        forall f | f in init ensures SampleKey(f) != Some(k) {
          assert f in files;
        }
      }
      WithKeyAbsent(init, k);
    }
  }

  lemma WithKeyStep(files: seq<string>, f: string, k: string)
    ensures WithKey(files + [f], k) == WithKey(files, k) + (if SampleKey(f) == Some(k) then [f] else [])
  {
    assert (files + [f])[..|files|] == files;
  }

  lemma KeyOccursStep(files: seq<string>, f: string, k: string, k': string)
    requires SampleKey(f) == Some(k)
    ensures KeyOccurs(files + [f], k') <==> KeyOccurs(files, k') || k' == k
  {
    assert f in files + [f];
    assert forall g :: g in files + [f] <==> g in files || g == f;
  }

  lemma InsertBucketed(bs: seq<Bucket>, files: seq<string>, k: string, f: string)
    requires Bucketed(bs, files)
    requires SampleKey(f) == Some(k)
    ensures Bucketed(Insert(bs, k, f), files + [f])
  {
    var files' := files + [f];
    var bs' := Insert(bs, k, f);
    forall k' ensures KeyOccurs(files', k') <==> KeyOccurs(files, k') || k' == k {
      KeyOccursStep(files, f, k, k');
    }
    match BucketIndex(bs, k)
    case Some(i) =>
      assert bs' == bs[i := Bucket(k, bs[i].files + [f])];
      assert Keys(bs') == Keys(bs);
      forall j | 0 <= j < |bs'| ensures bs'[j].files == WithKey(files', bs'[j].key) {
        WithKeyStep(files, f, bs[j].key);
      }
    case None =>
      assert bs' == bs + [Bucket(k, [f])];
      assert Keys(bs') == Keys(bs) + [k];
      WithKeyAbsent(files, k);
      forall j | 0 <= j < |bs'| ensures bs'[j].files == WithKey(files', bs'[j].key) {
        WithKeyStep(files, f, bs'[j].key);
      }
  }

  /** The first name of `files` that carries no sample key is `f`. */
  ghost predicate FirstUnkeyed(files: seq<string>, f: string)
  {
    exists i :: 0 <= i < |files| && files[i] == f && SampleKey(f).None? &&
      forall m :: 0 <= m < i ==> SampleKey(files[m]).Some?
  }

  /** The first loop of `GroupSamples` (112-114). `re.search(...).group(1)` on a
      name without a sample key raises, which is the `Failure` carrying that name. */
  function SampleBuckets(files: seq<string>): (r: Result<seq<Bucket>, string>)
    ensures r.Failure? ==> r.error in files && SampleKey(r.error).None?
    decreases |files|
  {
    if files == [] then Success([])
    else
      var init := files[..|files| - 1];
      var f := files[|files| - 1];
      match SampleBuckets(init)
      case Failure(e) => assert e in init && init <= files; Failure(e)
      case Success(bs) =>
        match SampleKey(f)
        case None => Failure(f)
        case Some(k) => Success(Insert(bs, k, f))
  }

  /** Bucketing fails exactly when some name has no sample key, and then names
      the first; otherwise the buckets hold each name once, under its own key. */
  lemma {:induction false} SampleBucketsSpec(files: seq<string>)
    ensures var r := SampleBuckets(files);
      && (r.Failure? <==> exists f :: f in files && SampleKey(f).None?)
      && (r.Failure? ==> FirstUnkeyed(files, r.error))
      && (r.Success? ==> Bucketed(r.value, files))
      && (r.Success? ==> multiset(AllFiles(r.value)) == multiset(files))
    decreases |files|
  {
    if files == [] {
      assert Bucketed([], files);
    } else {
      var init := files[..|files| - 1];
      var f := files[|files| - 1];
      assert files == init + [f];
      assert forall g :: g in files <==> g in init || g == f;
      SampleBucketsSpec(init);
      match SampleBuckets(init)
      case Failure(e) =>
        FirstUnkeyedExtend(init, f, e);
      case Success(bs) =>
        match SampleKey(f)
        case None =>
          FirstUnkeyedLast(init, f);
        case Some(k) =>
          InsertBucketed(bs, init, k, f);
          InsertMultiset(bs, k, f);
    }
  }

  lemma FirstUnkeyedExtend(init: seq<string>, f: string, e: string)
    requires FirstUnkeyed(init, e)
    ensures FirstUnkeyed(init + [f], e)
  {
    var i :| 0 <= i < |init| && init[i] == e && SampleKey(e).None? &&
      forall m :: 0 <= m < i ==> SampleKey(init[m]).Some?;
    assert (init + [f])[i] == e;
    assert forall m :: 0 <= m < i ==> (init + [f])[m] == init[m];
  }

  lemma FirstUnkeyedLast(init: seq<string>, f: string)
    requires forall g :: g in init ==> SampleKey(g).Some?
    requires SampleKey(f).None?
    ensures FirstUnkeyed(init + [f], f)
  {
    var files := init + [f];
    assert files[|init|] == f;
    assert forall m :: 0 <= m < |init| ==> files[m] == init[m] && init[m] in init;
  }

  /** The second loop of `GroupSamples` (116-125): one read-1 and one read-2 list per bucket. */
  function SplitReads(bs: seq<Bucket>): (g: Groups)
    ensures |g.read1| == |bs| && |g.read2| == |bs|
  {
    if bs == [] then Groups([], [])
    else
      var rest := SplitReads(bs[1..]);
      Groups([ReadSplit(bs[0].files, true)] + rest.read1, [ReadSplit(bs[0].files, false)] + rest.read2)
  }

  /** Bucket `i`'s names split into its read-1 list and its read-2 list, at index `i`. */
  lemma {:induction false} SplitReadsSpec(bs: seq<Bucket>)
    ensures var g := SplitReads(bs);
      forall i :: 0 <= i < |bs| ==>
        g.read1[i] == ReadSplit(bs[i].files, true) && g.read2[i] == ReadSplit(bs[i].files, false)
  {
    if bs != [] {
      SplitReadsSpec(bs[1..]);
      var g := SplitReads(bs);
      var rest := SplitReads(bs[1..]);
      forall i | 0 <= i < |bs|
        ensures g.read1[i] == ReadSplit(bs[i].files, true) && g.read2[i] == ReadSplit(bs[i].files, false)
      {
        if i > 0 {
          assert g.read1[i] == rest.read1[i - 1] && g.read2[i] == rest.read2[i - 1];
          assert bs[i] == bs[1..][i - 1];
        }
      }
    }
  }

  /** `g` is the grouping of `files` under some enumeration order `keys` of the
      distinct sample keys (a Python 2 dictionary fixes no order of its own). */
  ghost predicate GroupedBy(g: Groups, files: seq<string>, keys: seq<string>)
  {
    && |g.read1| == |keys| && |g.read2| == |keys|
    && Distinct(keys)
    && (forall k :: k in keys <==> KeyOccurs(files, k))
    && (forall i :: 0 <= i < |keys| ==>
          g.read1[i] == Select(files, keys[i], true) && g.read2[i] == Select(files, keys[i], false))
  }

  lemma ReadSplitStep(fs: seq<string>, f: string, r1: bool)
    ensures ReadSplit(fs + [f], r1) == ReadSplit(fs, r1) + (if IsRead1(f) == r1 then [f] else [])
  {
    assert (fs + [f])[..|fs|] == fs;
  }

  lemma {:induction false} ReadSplitWithKey(files: seq<string>, k: string, r1: bool)
    ensures ReadSplit(WithKey(files, k), r1) == Select(files, k, r1)
    decreases |files|
  {
    if files != [] {
      var init := files[..|files| - 1];
      var f := files[|files| - 1];
      ReadSplitWithKey(init, k, r1);
      if SampleKey(f) == Some(k) {
        ReadSplitStep(WithKey(init, k), f, r1);
      } else {
        assert WithKey(files, k) == WithKey(init, k) + [];
        assert WithKey(init, k) + [] == WithKey(init, k);
        assert Select(files, k, r1) == Select(init, k, r1) + [];
        assert Select(init, k, r1) + [] == Select(init, k, r1);
      }
    }
  }

  lemma {:induction false} SplitMultiset(fs: seq<string>)
    ensures multiset(ReadSplit(fs, true)) + multiset(ReadSplit(fs, false)) == multiset(fs)
    decreases |fs|
  {
    if fs != [] {
      var init := fs[..|fs| - 1];
      SplitMultiset(init);
      assert fs == init + [fs[|fs| - 1]];
    }
  }

  lemma {:induction false} FlattenAppend(a: seq<seq<string>>, b: seq<seq<string>>)
    ensures Flatten(a + b) == Flatten(a) + Flatten(b)
  {
    if a == [] {
      assert a + b == b;
    } else {
      assert (a + b)[0] == a[0];
      assert (a + b)[1..] == a[1..] + b;
      FlattenAppend(a[1..], b);
      assert Flatten(a + b) == a[0] + (Flatten(a[1..]) + Flatten(b));
    }
  }

  lemma {:induction false} SplitReadsMultiset(bs: seq<Bucket>)
    ensures multiset(Flatten(SplitReads(bs).read1)) + multiset(Flatten(SplitReads(bs).read2)) ==
            multiset(AllFiles(bs))
  {
    if bs != [] {
      SplitReadsMultiset(bs[1..]);
      SplitMultiset(bs[0].files);
    }
  }

  /** `GroupSamples(currentDir, files)`: the dictionary `{currentDir[0]: (read1, read2)}`,
      or the first name without a sample key, on which the source raises. */
  function GroupSamples(dir: string, files: seq<string>): (r: Result<map<string, Groups>, string>)
    ensures r.Success? ==> r.value.Keys == {dir}
  {
    match SampleBuckets(files)
    case Failure(f) => Failure(f)
    case Success(bs) => Success(map[dir := SplitReads(bs)])
  }

  /** Grouping fails exactly when some name has no sample key, naming the first;
      otherwise the one entry holds, for each distinct key in some order, the
      read-1 and the read-2 names with that key in their original order, and
      every name lands in exactly one list. */
  lemma GroupSamplesSpec(dir: string, files: seq<string>)
    ensures var r := GroupSamples(dir, files);
      && (r.Failure? <==> exists f :: f in files && SampleKey(f).None?)
      && (r.Failure? ==> FirstUnkeyed(files, r.error))
      && (r.Success? ==> exists keys :: GroupedBy(r.value[dir], files, keys))
      && (r.Success? ==> multiset(Flatten(r.value[dir].read1 + r.value[dir].read2)) == multiset(files))
  {
    SampleBucketsSpec(files);
    match SampleBuckets(files)
    case Failure(f) =>
    case Success(bs) =>
      var g := SplitReads(bs);
      SplitReadsSpec(bs);
      assert GroupSamples(dir, files).value[dir] == g;
      assert GroupedBy(g, files, Keys(bs)) by {
        forall i | 0 <= i < |bs|
          ensures g.read1[i] == Select(files, Keys(bs)[i], true)
          ensures g.read2[i] == Select(files, Keys(bs)[i], false)
        {
          ReadSplitWithKey(files, bs[i].key, true);
          ReadSplitWithKey(files, bs[i].key, false);
        }
      }
      SplitReadsMultiset(bs);
      FlattenAppend(g.read1, g.read2);
  }

  /** Each group holds only names of its own sample key, read-1 groups only names
      with `_R1_`, read-2 groups only names without it, and `read1[i]`, `read2[i]`
      come from the same key. */
  lemma GroupsHomogeneous(g: Groups, files: seq<string>, keys: seq<string>)
    requires GroupedBy(g, files, keys)
    ensures forall i, f :: 0 <= i < |keys| && f in g.read1[i] ==> SampleKey(f) == Some(keys[i]) && IsRead1(f)
    ensures forall i, f :: 0 <= i < |keys| && f in g.read2[i] ==> SampleKey(f) == Some(keys[i]) && !IsRead1(f)
  {
    forall i, f | 0 <= i < |keys| && f in g.read1[i] ensures SampleKey(f) == Some(keys[i]) && IsRead1(f) {
      SelectMembers(files, keys[i], true);
    }
    forall i, f | 0 <= i < |keys| && f in g.read2[i] ensures SampleKey(f) == Some(keys[i]) && !IsRead1(f) {
      SelectMembers(files, keys[i], false);
    }
  }

  /** The distinct sample keys of the names. */
  ghost function KeySet(files: seq<string>): set<string>
  {
    set f | f in files && SampleKey(f).Some? :: SampleKey(f).value
  }

  lemma {:induction false} DistinctCard(ks: seq<string>)
    requires Distinct(ks)
    ensures |set k | k in ks| == |ks|
  {
    if ks != [] {
      var rest := ks[1..];
      assert Distinct(rest) by {
        forall i, j | 0 <= i < j < |rest| ensures rest[i] != rest[j] {
          assert rest[i] == ks[i + 1] && rest[j] == ks[j + 1];
        }
      }
      DistinctCard(rest);
      assert ks[0] !in rest by {
        forall m | 0 <= m < |rest| ensures rest[m] != ks[0] {
          assert rest[m] == ks[m + 1];
        }
      }
      assert (set k | k in ks) == (set k | k in rest) + {ks[0]};
    }
  }

  /** There are as many read-1 groups, and as many read-2 groups, as distinct sample keys. */
  lemma GroupCount(g: Groups, files: seq<string>, keys: seq<string>)
    requires GroupedBy(g, files, keys)
    ensures |g.read1| == |g.read2| == |KeySet(files)|
  {
    DistinctCard(keys);
    forall k ensures k in KeySet(files) <==> k in keys {
      if k in KeySet(files) {
        var f :| f in files && SampleKey(f).Some? && SampleKey(f).value == k;
        assert SampleKey(f) == Some(k);
      }
      if k in keys {
        var f :| f in files && SampleKey(f) == Some(k);
        assert SampleKey(f).value == k;
      }
    }
    assert (set k | k in keys) == KeySet(files);
  }

  /** Selecting from a concatenation selects from each part in turn: a group keeps
      the names in the order they were listed. */
  lemma {:induction false} SelectConcat(a: seq<string>, b: seq<string>, k: string, r1: bool)
    ensures Select(a + b, k, r1) == Select(a, k, r1) + Select(b, k, r1)
    decreases |b|
  {
    if b == [] {
      assert a + b == a;
    } else {
      var init := b[..|b| - 1];
      var f := b[|b| - 1];
      assert (a + b)[..|a + b| - 1] == a + init;
      assert (a + b)[|a + b| - 1] == f;
      SelectConcat(a, init, k, r1);
    }
  }
}

=== FILE: merge.dfy ===
/** The decision part of `MergeFiles` (run_combiner.py:137-175): the output name
    derived from a group's first file (142-145) and the remnant test (159). The
    process launches (`mkdir`, `touch`, `gzip`, `rm`) are recorded only as the
    abstract call they belong to. */
module Merge {
  import opened Wrappers
  import opened Text
  import opened FileNames

  /** Why lines 142-145 raise: `samples[0]` on an empty list, or `.group` on a failed search. */
  datatype NameError =
    | EmptyGroup
    | NoExperimentName(file: string)
    | NoSampleKey(file: string)
    | NoReadToken(file: string)

  /** What the body of the `try` does with a group: line 159 ignores a group that
      contains the output's own `.gz` name, otherwise the fragments are concatenated. */
  datatype MergeAction = Concatenate | IgnoreRemnant

  /** One call `MergeFiles(dir, group, ...)` that got past the name derivation. */
  datatype MergeCall = MergeCall(dir: string, group: seq<string>, output: string, action: MergeAction)

  /** `merged_name` (142-145): experiment `_` sample `_` read `.fastq`, the three
      parts taken from `first`; the first failed search, left to right, is the error. */
  function MergedName(first: string): (r: Result<string, NameError>)
    ensures r.Success? <==>
              ExperimentName(first).Some? && SampleKey(first).Some? && ReadToken(first).Some?
    ensures r.Failure? ==> !r.error.EmptyGroup? && r.error.file == first
    ensures r.Success? ==> EndsWith(r.value, "_" + ReadToken(first).value + ".fastq")
  {
    match (ExperimentName(first), SampleKey(first), ReadToken(first))
    case (None, _, _) => Failure(NoExperimentName(first))
    case (Some(_), None, _) => Failure(NoSampleKey(first))
    case (Some(_), Some(_), None) => Failure(NoReadToken(first))
    case (Some(e), Some(k), Some(rd)) =>
      var n := e + "_" + k + "_" + rd + ".fastq";
      assert n[|n| - |"_" + rd + ".fastq"|..] == "_" + rd + ".fastq";
      Success(n)
  }

  /** `MergeFiles(dir, group, keep)` up to the `try`: the name is a function of
      `group[0]` alone, and the group is ignored exactly when it holds `<name>.gz`. */
  function MergeFiles(dir: string, group: seq<string>): (r: Result<MergeCall, NameError>)
    ensures r.Failure? <==> group == [] || MergedName(group[0]).Failure?
    ensures group == [] ==> r == Failure(EmptyGroup)
    ensures r.Success? ==> r.value.dir == dir && r.value.group == group
    ensures r.Success? ==> r.value.output == MergedName(group[0]).value
    ensures r.Success? ==> (r.value.action == IgnoreRemnant <==> r.value.output + ".gz" in group)
  {
    if group == [] then Failure(EmptyGroup)
    else match MergedName(group[0])
      case Failure(e) => Failure(e)
      case Success(n) =>
        Success(MergeCall(dir, group, n, if n + ".gz" in group then IgnoreRemnant else Concatenate))
  }

  /** A token that is leftmost is the one `Token` reports. */
  lemma TokenIsLeftmost(s: string, c: char, i: nat, j: nat)
    requires TokenAt(s, c, i, j)
    requires forall i': nat, j': nat :: i' < i ==> !TokenAt(s, c, i', j')
    ensures Token(s, c) == Some(s[i + 1..j])
  {
    var r := FindToken(s, c, 0);
    assert r.Some?;
    var i0 := r.value.0;
    var j0 := r.value.1;
    assert i0 == i;
    DigitsEndAt(s, i + 2, j);
    DigitsEndAt(s, i + 2, j0);
  }

  /** A prefix match that is leftmost is the one `ExperimentName` reports. */
  lemma PrefixIsLeftmost(s: string, p: nat, k: nat)
    requires PrefixAt(s, p, k)
    requires forall p': nat, k': nat :: p' < p ==> !PrefixAt(s, p', k')
    ensures ExperimentName(s) == Some(s[p..k])
  {
    var r := FindPrefix(s, 0);
    assert r.Some?;
    var p0 := r.value.0;
    var k0 := r.value.1;
    assert p0 == p;
    assert PrefixAt(s, p, k0);
    assert k0 == k;
  }

  /** Every token is also where a `(.+?)_` match can start. */
  lemma TokenStartsPrefix(s: string, c: char, i: nat, j: nat)
    requires TokenAt(s, c, i, j)
    requires c != '_' && c != '\n'
    ensures PrefixAt(s, i, j)
  {
  }

  /** A name from which a sample key can be read always yields an experiment name,
      so for a grouped fragment line 142 never fails. */
  lemma KeyedNameHasExperiment(s: string)
    requires SampleKey(s).Some?
    ensures ExperimentName(s).Some?
  {
    var i: nat, j: nat :| TokenAt(s, 'S', i, j);
    TokenStartsPrefix(s, 'S', i, j);
  }

  /** The shape of an experiment name that `ExperimentName` can return. */
  ghost predicate ExperimentShaped(e: string)
  {
    e != [] && '\n' !in e && forall m :: 1 <= m < |e| ==> e[m] != '_'
  }

  /** The shape of a token `Token(_, c)` can return. */
  ghost predicate TokenShaped(t: string, c: char)
  {
    |t| >= 2 && t[0] == c && forall m :: 1 <= m < |t| ==> IsDigit(t[m])
  }

  /** An experiment name that itself reads as `_S<digits>`. */
  ghost predicate LeadingKey(e: string)
  {
    |e| > 2 && e[0] == '_' && e[1] == 'S' && forall m :: 2 <= m < |e| ==> IsDigit(e[m])
  }

  lemma ExperimentOfLayout(e: string, tail: string)
    requires ExperimentShaped(e)
    ensures ExperimentName(e + "_" + tail) == Some(e)
  {
    var n := e + "_" + tail;
    assert forall m :: 0 <= m < |e| ==> n[m] == e[m];
    assert PrefixAt(n, 0, |e|);
    PrefixIsLeftmost(n, 0, |e|);
    assert n[..|e|] == e;
  }

  lemma SampleOfLayoutLeading(e: string, tail: string)
    requires ExperimentShaped(e) && LeadingKey(e)
    ensures SampleKey(e + "_" + tail) == Some(e[1..])
  {
    var n := e + "_" + tail;
    assert forall m :: 0 <= m < |e| ==> n[m] == e[m];
    assert TokenAt(n, 'S', 0, |e|);
    TokenIsLeftmost(n, 'S', 0, |e|);
    assert n[1..|e|] == e[1..];
  }

  /** No token of `n` starts inside an experiment name that `n` begins with. */
  lemma NoTokenInExperiment(n: string, e: string)
    requires ExperimentShaped(e) && !LeadingKey(e)
    requires |e| < |n| && n[|e|] == '_' && forall m :: 0 <= m < |e| ==> n[m] == e[m]
    ensures forall i': nat, j': nat :: i' < |e| ==> !TokenAt(n, 'S', i', j')
  {
    forall i': nat, j': nat | i' < |e| ensures !TokenAt(n, 'S', i', j') {
      if 0 < i' {
        assert n[i'] != '_';
      } else if 1 <= j' < |e| {
        assert n[j'] != '_';
      } else if j' > |e| {
        assert !IsDigit(n[|e|]);
      }
    }
  }

  lemma SampleOfLayoutPlain(e: string, k: string, tail: string)
    requires ExperimentShaped(e) && !LeadingKey(e) && TokenShaped(k, 'S')
    ensures SampleKey(e + "_" + k + "_" + tail) == Some(k)
  {
    var n := e + "_" + k + "_" + tail;
    var j := |e| + 1 + |k|;
    assert n[..|e|] == e;
    assert n[|e|] == '_';
    assert n[|e| + 1..j] == k;
    assert n[j] == '_';
    assert TokenAt(n, 'S', |e|, j);
    NoTokenInExperiment(n, e);
    TokenIsLeftmost(n, 'S', |e|, j);
  }

  /** When the experiment name reads as `_S<digits>`, that is also the file's sample key. */
  lemma LeadingKeyIsSampleKey(first: string)
    requires ExperimentName(first).Some? && LeadingKey(ExperimentName(first).value)
    ensures SampleKey(first) == Some(ExperimentName(first).value[1..])
  {
    var e := ExperimentName(first).value;
    ExperimentNameSpec(first);
    var p: nat, q: nat :| PrefixAt(first, p, q) && e == first[p..q] &&
      forall p': nat, q': nat :: p' < p ==> !PrefixAt(first, p', q');
    assert forall m :: 0 <= m < |e| ==> first[p + m] == e[m];
    assert TokenAt(first, 'S', p, q);
    forall i': nat, j': nat | i' < p ensures !TokenAt(first, 'S', i', j') {
      if TokenAt(first, 'S', i', j') {
        TokenStartsPrefix(first, 'S', i', j');
      }
    }
    TokenIsLeftmost(first, 'S', p, q);
    assert first[p + 1..q] == e[1..];
  }

  /** The three parts `MergedName` joins, with the shapes their scanners guarantee. */
  lemma MergedNameParts(first: string)
    requires MergedName(first).Success?
    ensures ExperimentShaped(ExperimentName(first).value)
    ensures TokenShaped(SampleKey(first).value, 'S')
    ensures TokenShaped(ReadToken(first).value, 'R')
    ensures MergedName(first).value ==
            ExperimentName(first).value + "_" + SampleKey(first).value + "_" + (ReadToken(first).value + ".fastq")
  {
  }

  /** The output name parses back: its experiment name and sample key are those of
      the group's first file, so the merged file is labelled with the group's sample. */
  lemma MergedNameParsesBack(first: string)
    requires MergedName(first).Success?
    ensures ExperimentName(MergedName(first).value) == ExperimentName(first)
    ensures SampleKey(MergedName(first).value) == SampleKey(first)
  {
    var e := ExperimentName(first).value;
    var k := SampleKey(first).value;
    var tail := ReadToken(first).value + ".fastq";
    MergedNameParts(first);
    var n := MergedName(first).value;
    assert n == e + "_" + (k + "_" + tail);
    ExperimentOfLayout(e, k + "_" + tail);
    if LeadingKey(e) {
      SampleOfLayoutLeading(e, k + "_" + tail);
      LeadingKeyIsSampleKey(first);
    } else {
      SampleOfLayoutPlain(e, k, tail);
    }
  }

  /** Every read-1 name carries a read token (`_R1_` is one), so for a read-1
      group whose first name has a sample key, line 144 never fails. */
  lemma Read1HasReadToken(s: string)
    ensures IsRead1(s) ==> ReadToken(s).Some?
  {
    if IsRead1(s) {
      var i: nat :| OccursAt(s, "_R1_", i);
      assert s[i..i + 4] == "_R1_";
      assert s[i] == '_' && s[i + 1] == 'R' && s[i + 2] == '1' && s[i + 3] == '_';
      assert TokenAt(s, 'R', i, i + 3);
      TokenSpec(s, 'R');
    }
  }

  lemma FragmentExperiment()
    ensures ExperimentName("A_S1_L001_R1_001.fastq.gz") == Some("A")
  {
    var s := "A_S1_L001_R1_001.fastq.gz";
    assert PrefixAt(s, 0, 1);
    PrefixIsLeftmost(s, 0, 1);
    assert s[0..1] == "A";
  }

  lemma FragmentSample()
    ensures SampleKey("A_S1_L001_R1_001.fastq.gz") == Some("S1")
  {
    var s := "A_S1_L001_R1_001.fastq.gz";
    assert IsDigit(s[3]);
    assert TokenAt(s, 'S', 1, 4);
    TokenIsLeftmost(s, 'S', 1, 4);
    assert s[2..4] == "S1";
  }

  lemma FragmentRead()
    ensures ReadToken("A_S1_L001_R1_001.fastq.gz") == Some("R1")
  {
    var s := "A_S1_L001_R1_001.fastq.gz";
    assert IsDigit(s[11]);
    assert TokenAt(s, 'R', 9, 12);
    assert 'R' !in s[..10];
    forall i': nat, j': nat | i' < 9 ensures !TokenAt(s, 'R', i', j') {
      assert s[i' + 1] == s[..10][i' + 1];
    }
    TokenIsLeftmost(s, 'R', 9, 12);
    assert s[10..12] == "R1";
  }

  lemma MergedNameOf(first: string, e: string, k: string, rd: string)
    requires ExperimentName(first) == Some(e) && SampleKey(first) == Some(k) && ReadToken(first) == Some(rd)
    ensures MergedName(first) == Success(e + "_" + k + "_" + rd + ".fastq")
  {
  }

  /** How a fragment name as the sequencer writes it is parsed. */
  lemma FragmentExample()
    ensures MergedName("A_S1_L001_R1_001.fastq.gz") == Success("A_S1_R1.fastq")
  {
    var s, e, k, rd := "A_S1_L001_R1_001.fastq.gz", "A", "S1", "R1";
    assert e + "_" + k + "_" + rd + ".fastq" == "A_S1_R1.fastq" by {
      assert e + "_" + k + "_" + rd + ".fastq" == ['A', '_', 'S', '1', '_', 'R', '1', '.', 'f', 'a', 's', 't', 'q'];
    }
    FragmentExperiment();
    FragmentSample();
    FragmentRead();
    MergedNameOf(s, e, k, rd);
  }

  lemma RemnantSample()
    ensures ExperimentName("A_S1_R1.fastq.gz") == Some("A")
    ensures SampleKey("A_S1_R1.fastq.gz") == Some("S1")
  {
    var t := "A_S1_R1.fastq.gz";
    assert PrefixAt(t, 0, 1);
    PrefixIsLeftmost(t, 0, 1);
    assert t[0..1] == "A";
    assert IsDigit(t[3]);
    assert TokenAt(t, 'S', 1, 4);
    TokenIsLeftmost(t, 'S', 1, 4);
    assert t[2..4] == "S1";
  }

  /** That fragment's merged output, listed again on a later pass, carries no
      `_R1_` and no `_(R\d+)_` token: it is grouped with the read-2 names, and as the
      first name of a group it makes line 144 raise. */
  lemma RemnantExample()
    ensures !IsRead1("A_S1_R1.fastq.gz")
    ensures SampleKey("A_S1_R1.fastq.gz") == Some("S1")
    ensures MergedName("A_S1_R1.fastq.gz") == Failure(NoReadToken("A_S1_R1.fastq.gz"))
  {
    var t := "A_S1_R1.fastq.gz";
    assert ReadToken(t) == None;
    Read1HasReadToken(t);
    RemnantSample();
  }
}

=== FILE: reconcile.dfy ===
/** The reconciliation pass of `main` (run_combiner.py:236-268) as one state
    transition: from a directory listing, the `.completed` store's text and three
    oracles to the sequence of notifications, `MergeFiles` calls and completion
    marks it makes, the store's new text, and the error that stopped it, if any. */
module Reconcile {
  import opened Wrappers
  import opened Text
  import opened Grouping
  import opened Merge
  import opened Tracker

  /** One name returned by `os.listdir(dirPath)` with the answer `os.path.isdir` gives for it. */
  datatype Entry = Entry(name: string, isDir: bool)

  /** `fname.startswith(".")` */
  predicate Hidden(name: string)
  {
    |name| > 0 && name[0] == '.'
  }

  /** `ListDirNoHidden(dirPath)` (59-69): the joined paths of the non-hidden directories, in listing order. */
  function ListDirNoHidden(dirPath: string, listing: seq<Entry>): seq<string>
  {
    if listing == [] then []
    else
      var e := listing[0];
      (if e.isDir && !Hidden(e.name) then [Join(dirPath, e.name)] else []) + ListDirNoHidden(dirPath, listing[1..])
  }

  /** A path is listed exactly when some non-hidden directory entry joins to it. */
  lemma {:induction false} ListDirMembers(dirPath: string, listing: seq<Entry>)
    ensures forall p :: p in ListDirNoHidden(dirPath, listing) <==>
              exists e :: e in listing && e.isDir && !Hidden(e.name) && p == Join(dirPath, e.name)
  {
    if listing != [] {
      ListDirMembers(dirPath, listing[1..]);
      assert forall e :: e in listing <==> e == listing[0] || e in listing[1..];
    }
  }

  /** The listing is scanned in order: listing two parts lists each part in turn. */
  lemma {:induction false} ListDirConcat(dirPath: string, a: seq<Entry>, b: seq<Entry>)
    ensures ListDirNoHidden(dirPath, a + b) == ListDirNoHidden(dirPath, a) + ListDirNoHidden(dirPath, b)
  {
    if a == [] {
      assert a + b == b;
    } else {
      assert (a + b)[0] == a[0];
      assert (a + b)[1..] == a[1..] + b;
      ListDirConcat(dirPath, a[1..], b);
    }
  }

  /** `[d for d in directories if d not in completed]` (238). */
  function NotCompleted(dirs: seq<string>, completed: seq<string>): (r: seq<string>)
    ensures forall d :: d in r <==> d in dirs && d !in completed
  {
    if dirs == [] then []
    else (if dirs[0] in completed then [] else [dirs[0]]) + NotCompleted(dirs[1..], completed)
  }

  /** Candidates keep the listing order: filtering two parts filters each in turn. */
  lemma {:induction false} NotCompletedConcat(a: seq<string>, b: seq<string>, completed: seq<string>)
    ensures NotCompleted(a + b, completed) == NotCompleted(a, completed) + NotCompleted(b, completed)
  {
    if a == [] {
      assert a + b == b;
    } else {
      assert (a + b)[0] == a[0];
      assert (a + b)[1..] == a[1..] + b;
      NotCompletedConcat(a[1..], b, completed);
    }
  }

  /** The candidates whose permission flag equals `flag`, in order: `True in directory`
      (240) holds exactly for the tuples `(d, True)`, and line 241's test against
      `completed` compares a tuple with strings and always passes. */
  function WithPermission(dirs: seq<string>, permitted: string -> bool, flag: bool): seq<string>
  {
    if dirs == [] then []
    else (if permitted(dirs[0]) == flag then [dirs[0]] else []) + WithPermission(dirs[1..], permitted, flag)
  }

  /** The writable and unwritable lists split the candidates exactly: each keeps the
      candidates with its flag, in order, and together they are the candidates. */
  lemma {:induction false} PermissionSplit(dirs: seq<string>, permitted: string -> bool)
    ensures forall d :: d in WithPermission(dirs, permitted, true) <==> d in dirs && permitted(d)
    ensures forall d :: d in WithPermission(dirs, permitted, false) <==> d in dirs && !permitted(d)
    ensures multiset(WithPermission(dirs, permitted, true)) + multiset(WithPermission(dirs, permitted, false)) ==
            multiset(dirs)
  {
    if dirs != [] {
      PermissionSplit(dirs[1..], permitted);
      assert dirs == [dirs[0]] + dirs[1..];
    }
  }

  /** Each permission list keeps the candidates' order: splitting two parts splits each in turn. */
  lemma {:induction false} WithPermissionConcat(a: seq<string>, b: seq<string>, permitted: string -> bool, flag: bool)
    ensures WithPermission(a + b, permitted, flag) == WithPermission(a, permitted, flag) + WithPermission(b, permitted, flag)
  {
    if a == [] {
      assert a + b == b;
    } else {
      assert (a + b)[0] == a[0];
      assert (a + b)[1..] == a[1..] + b;
      WithPermissionConcat(a[1..], b, permitted, flag);
    }
  }

  /** The external checks of one run: `CheckPermissions` (129-134), `Checkmd5`'s
      exit status (88-94) and the `.gz` names `FilesToBeMerged` finds (96-100). */
  datatype Oracles = Oracles(permitted: string -> bool, md5Status: string -> int, gzFiles: string -> seq<string>)

  /** What the pass does, in order. Mails and log lines become the two notices. */
  datatype Event =
    | Unwritable(dir: string)
    | Md5Mismatch(dir: string)
    | Merged(call: MergeCall)
    | MarkedCompleted(dir: string)

  function EventDir(e: Event): string
  {
    match e
    case Unwritable(d) => d
    case Md5Mismatch(d) => d
    case Merged(c) => c.dir
    case MarkedCompleted(d) => d
  }

  /** The two ways an exception leaves `main`: `GroupSamples` on a name without a
      sample key (113-114) and `MergeFiles` before its `try` (142-145). */
  datatype Abort = UnkeyedFile(dir: string, file: string) | BadGroup(dir: string, error: NameError)

  function AbortDir(a: Abort): string
  {
    match a
    case UnkeyedFile(d, _) => d
    case BadGroup(d, _) => d
  }

  datatype Pass = Pass(events: seq<Event>, store: string, abort: Option<Abort>)

  /** The directories marked completed, in the order of their marks. */
  function Marked(events: seq<Event>): seq<string>
  {
    if events == [] then []
    else (if events[0].MarkedCompleted? then [events[0].dir] else []) + Marked(events[1..])
  }

  lemma {:induction false} MarkedConcat(a: seq<Event>, b: seq<Event>)
    ensures Marked(a + b) == Marked(a) + Marked(b)
  {
    if a == [] {
      assert a + b == b;
    } else {
      assert (a + b)[0] == a[0];
      assert (a + b)[1..] == a[1..] + b;
      MarkedConcat(a[1..], b);
    }
  }

  lemma {:induction false} MarkedMembers(events: seq<Event>)
    ensures forall d :: d in Marked(events) <==> MarkedCompleted(d) in events
  {
    if events != [] {
      MarkedMembers(events[1..]);
      assert forall e :: e in events <==> e == events[0] || e in events[1..];
    }
  }

  lemma {:induction false} AppendAllConcat(store: string, a: seq<string>, b: seq<string>)
    ensures AppendAll(AppendAll(store, a), b) == AppendAll(store, a + b)
    decreases |a|
  {
    if a == [] {
      assert a + b == b;
    } else {
      assert (a + b)[0] == a[0];
      assert (a + b)[1..] == a[1..] + b;
      AppendAllConcat(UpdateCompleted(store, a[0]), a[1..], b);
    }
  }

  /** No event is an unwritable-run notice. */
  predicate NoNotices(events: seq<Event>)
  {
    forall i :: 0 <= i < |events| ==> !events[i].Unwritable?
  }

  /** The groups `main` hands to `MergeFiles`, read-1 lists first (258-261). */
  function AllGroups(g: Groups): seq<seq<string>>
  {
    g.read1 + g.read2
  }

  /** `for item in value: MergeFiles(key, item, ...)` (259-261): one call per group,
      in order, until the first one that raises. */
  function MergeGroups(dir: string, groups: seq<seq<string>>): (r: (seq<Event>, Option<NameError>))
    ensures |r.0| <= |groups|
  {
    if groups == [] then ([], None)
    else match MergeFiles(dir, groups[0])
      case Failure(e) => ([], Some(e))
      case Success(c) =>
        var rest := MergeGroups(dir, groups[1..]);
        ([Merged(c)] + rest.0, rest.1)
  }

  /** The calls made are those of the leading groups that yield a name, one each,
      and the loop stops exactly at the first group that does not (or at the end). */
  lemma {:induction false} MergeGroupsFacts(dir: string, groups: seq<seq<string>>)
    ensures var r := MergeGroups(dir, groups);
      && (r.1.None? <==> |r.0| == |groups|)
      && (r.1.Some? ==> MergeFiles(dir, groups[|r.0|]) == Failure(r.1.value))
      && (forall i :: 0 <= i < |r.0| ==>
            MergeFiles(dir, groups[i]).Success? && r.0[i] == Merged(MergeFiles(dir, groups[i]).value))
  {
    if groups != [] && MergeFiles(dir, groups[0]).Success? {
      MergeGroupsFacts(dir, groups[1..]);
      var rest := MergeGroups(dir, groups[1..]);
      var r := MergeGroups(dir, groups);
      assert r.0 == [Merged(MergeFiles(dir, groups[0]).value)] + rest.0;
      CallsShift(dir, groups, rest.0, r.0);
    }
  }

  /** The calls of `groups[1..]`, behind the call of `groups[0]`, are the calls of `groups`. */
  lemma CallsShift(dir: string, groups: seq<seq<string>>, rest: seq<Event>, all: seq<Event>)
    requires groups != [] && MergeFiles(dir, groups[0]).Success?
    requires all == [Merged(MergeFiles(dir, groups[0]).value)] + rest
    requires |rest| < |groups|
    requires forall i :: 0 <= i < |rest| ==>
               MergeFiles(dir, groups[1..][i]).Success? && rest[i] == Merged(MergeFiles(dir, groups[1..][i]).value)
    ensures forall i :: 0 <= i < |all| ==>
              MergeFiles(dir, groups[i]).Success? && all[i] == Merged(MergeFiles(dir, groups[i]).value)
  {
    forall i | 0 < i < |all|
      ensures MergeFiles(dir, groups[i]).Success? && all[i] == Merged(MergeFiles(dir, groups[i]).value)
    {
      assert all[i] == rest[i - 1] && groups[i] == groups[1..][i - 1];
    }
  }

  /** A writable run whose transfer checked out, whose names all carry a sample key
      and each of whose groups yields an output name: the run `main` marks completed. */
  ghost predicate RunSucceeds(d: string, o: Oracles)
  {
    && o.md5Status(d) == 0
    && GroupSamples(d, o.gzFiles(d)).Success?
    && var gs := AllGroups(GroupSamples(d, o.gzFiles(d)).value[d]);
       forall i :: 0 <= i < |gs| ==> MergeFiles(d, gs[i]).Success?
  }

  /** The groups of a run whose grouping succeeds. */
  function RunGroups(d: string, o: Oracles): seq<seq<string>>
    requires GroupSamples(d, o.gzFiles(d)).Success?
  {
    AllGroups(GroupSamples(d, o.gzFiles(d)).value[d])
  }

  /** The events just before index `i` are exactly `calls`. */
  predicate CallsBefore(events: seq<Event>, i: nat, calls: seq<Event>)
  {
    |calls| <= i <= |events| && events[i - |calls| .. i] == calls
  }

  /** For a run that succeeds, its `MergeFiles` calls, one per group in group order. */
  ghost function RunCalls(o: Oracles): string -> Option<seq<Event>>
  {
    d => if RunSucceeds(d, o) then Some(MergeGroups(d, RunGroups(d, o)).0) else None
  }

  /** The mark at `i` is for a run that `calls` has calls for, and they come right before it. */
  predicate MarkAfter(events: seq<Event>, i: nat, calls: string -> Option<seq<Event>>)
    requires i < |events| && events[i].MarkedCompleted?
  {
    calls(events[i].dir).Some? && CallsBefore(events, i, calls(events[i].dir).value)
  }

  /** The mark at `i` comes right after one `MergeFiles` call per group of its run, in group order. */
  ghost predicate MarkPreceded(events: seq<Event>, i: nat, o: Oracles)
    requires i < |events| && events[i].MarkedCompleted?
  {
    MarkAfter(events, i, RunCalls(o))
  }

  /** The body of `for directory in writable_directories` (251-268) for one run. */
  function ProcessRun(d: string, store: string, o: Oracles): (r: Pass)
    ensures r.store == (if r.abort.None? && o.md5Status(d) == 0 then UpdateCompleted(store, d) else store)
  {
    if o.md5Status(d) != 0 then Pass([Md5Mismatch(d)], store, None)
    else match GroupSamples(d, o.gzFiles(d))
      case Failure(f) => Pass([], store, Some(UnkeyedFile(d, f)))
      case Success(m) =>
        var (calls, err) := MergeGroups(d, AllGroups(m[d]));
        match err
        case Some(e) => Pass(calls, store, Some(BadGroup(d, e)))
        case None => Pass(calls + [MarkedCompleted(d)], UpdateCompleted(store, d), None)
  }

  /** Every event of one run is about that run; the run is marked (and the store
      gains its line) exactly when it succeeds; the pass stops exactly when a
      writable, checked-out run raises; a failed checksum gives one notice only;
      and a successful run's mark follows one merge call per group. */
  lemma ProcessRunFacts(d: string, store: string, o: Oracles)
    ensures RunFacts(d, store, o, ProcessRun(d, store, o), RunSucceeds(d, o))
  {
    if o.md5Status(d) != 0 {
      Md5Case(d, store, o);
    } else if GroupSamples(d, o.gzFiles(d)).Failure? {
      UnkeyedCase(d, store, o);
    } else if MergeGroups(d, RunGroups(d, o)).1.Some? {
      BadGroupCase(d, store, o);
    } else {
      SuccessCase(d, store, o);
    }
  }

  /** What one run's pass does, given whether the run succeeds (`ok`). */
  ghost predicate RunFacts(d: string, store: string, o: Oracles, r: Pass, ok: bool)
  {
    && (forall i :: 0 <= i < |r.events| ==> EventDir(r.events[i]) == d)
    && NoNotices(r.events)
    && (forall i :: 0 <= i < |r.events| && r.events[i].MarkedCompleted? ==> ok && i == |r.events| - 1)
    && Marked(r.events) == (if ok then [d] else [])
    && r.store == AppendAll(store, Marked(r.events))
    && (r.abort.Some? <==> o.md5Status(d) == 0 && !ok)
    && (r.abort.Some? ==> AbortDir(r.abort.value) == d)
    && (o.md5Status(d) != 0 ==> r.events == [Md5Mismatch(d)])
    && (ok ==>
          && RunSucceeds(d, o)
          && r.events == MergeGroups(d, RunGroups(d, o)).0 + [MarkedCompleted(d)]
          && MarkPreceded(r.events, |r.events| - 1, o))
  }

  lemma Md5Case(d: string, store: string, o: Oracles)
    requires o.md5Status(d) != 0
    ensures RunFacts(d, store, o, ProcessRun(d, store, o), RunSucceeds(d, o))
  {
    assert ProcessRun(d, store, o) == Pass([Md5Mismatch(d)], store, None);
    assert !RunSucceeds(d, o);
    assert Marked([Md5Mismatch(d)]) == [];
  }

  lemma UnkeyedCase(d: string, store: string, o: Oracles)
    requires o.md5Status(d) == 0 && GroupSamples(d, o.gzFiles(d)).Failure?
    ensures RunFacts(d, store, o, ProcessRun(d, store, o), RunSucceeds(d, o))
  {
    assert ProcessRun(d, store, o) == Pass([], store, Some(UnkeyedFile(d, GroupSamples(d, o.gzFiles(d)).error)));
    assert !RunSucceeds(d, o);
  }

  lemma BadGroupCase(d: string, store: string, o: Oracles)
    requires o.md5Status(d) == 0 && GroupSamples(d, o.gzFiles(d)).Success?
    requires MergeGroups(d, RunGroups(d, o)).1.Some?
    ensures RunFacts(d, store, o, ProcessRun(d, store, o), RunSucceeds(d, o))
  {
    var groups := RunGroups(d, o);
    var m := MergeGroups(d, groups);
    MergeGroupsFacts(d, groups);
    FailedGroup(d, o, groups, |m.0|);
    BadGroupShape(d, store, o);
    CallsAreMerges(d, groups);
    BadGroupFacts(d, store, o, m.0, m.1.value);
  }

  lemma CallsAreMerges(dir: string, groups: seq<seq<string>>)
    ensures var calls := MergeGroups(dir, groups).0;
      forall i :: 0 <= i < |calls| ==> calls[i].Merged? && calls[i].call.dir == dir
  {
    MergeGroupsFacts(dir, groups);
  }

  lemma BadGroupShape(d: string, store: string, o: Oracles)
    requires o.md5Status(d) == 0 && GroupSamples(d, o.gzFiles(d)).Success?
    requires MergeGroups(d, RunGroups(d, o)).1.Some?
    ensures var (calls, err) := MergeGroups(d, RunGroups(d, o));
      ProcessRun(d, store, o) == Pass(calls, store, Some(BadGroup(d, err.value)))
  {
  }

  lemma BadGroupFacts(d: string, store: string, o: Oracles, calls: seq<Event>, e: NameError)
    requires o.md5Status(d) == 0
    requires forall i :: 0 <= i < |calls| ==> calls[i].Merged? && calls[i].call.dir == d
    ensures RunFacts(d, store, o, Pass(calls, store, Some(BadGroup(d, e))), false)
  {
    NoMarksInCalls(calls);
  }

  lemma SuccessCase(d: string, store: string, o: Oracles)
    requires o.md5Status(d) == 0 && GroupSamples(d, o.gzFiles(d)).Success?
    requires MergeGroups(d, RunGroups(d, o)).1.None?
    ensures RunFacts(d, store, o, ProcessRun(d, store, o), RunSucceeds(d, o))
  {
    MergeGroupsFacts(d, RunGroups(d, o));
    SucceededGroups(d, o, RunGroups(d, o));
    SuccessShape(d, store, o);
    SuccessFacts(d, store, o, ProcessRun(d, store, o));
  }

  lemma SuccessShape(d: string, store: string, o: Oracles)
    requires o.md5Status(d) == 0 && GroupSamples(d, o.gzFiles(d)).Success?
    requires MergeGroups(d, RunGroups(d, o)).1.None?
    ensures ProcessRun(d, store, o) ==
            Pass(MergeGroups(d, RunGroups(d, o)).0 + [MarkedCompleted(d)], UpdateCompleted(store, d), None)
  {
  }

  lemma SuccessFacts(d: string, store: string, o: Oracles, r: Pass)
    requires o.md5Status(d) == 0 && GroupSamples(d, o.gzFiles(d)).Success?
    requires MergeGroups(d, RunGroups(d, o)).1.None?
    requires r == Pass(MergeGroups(d, RunGroups(d, o)).0 + [MarkedCompleted(d)], UpdateCompleted(store, d), None)
    ensures RunFacts(d, store, o, r, true)
  {
    var groups := RunGroups(d, o);
    var calls := MergeGroups(d, groups).0;
    CallsAreMerges(d, groups);
    SuccessEvents(d, store, calls, r);
    MergeGroupsFacts(d, groups);
    SucceededGroups(d, o, groups);
    MarkAfterCalls(d, o, calls);
  }

  /** The facts about a successful run's events that hold for any merge calls of it. */
  lemma SuccessEvents(d: string, store: string, calls: seq<Event>, r: Pass)
    requires forall i :: 0 <= i < |calls| ==> calls[i].Merged? && calls[i].call.dir == d
    requires r == Pass(calls + [MarkedCompleted(d)], UpdateCompleted(store, d), None)
    ensures forall i :: 0 <= i < |r.events| ==> EventDir(r.events[i]) == d
    ensures NoNotices(r.events)
    ensures forall i :: 0 <= i < |r.events| && r.events[i].MarkedCompleted? ==> i == |r.events| - 1
    ensures Marked(r.events) == [d]
    ensures r.store == AppendAll(store, Marked(r.events))
  {
    NoMarksInCalls(calls);
    MarkedSuccess(d, calls, store);
    MarkOnlyLast(d, calls);
  }

  lemma MarkOnlyLast(d: string, calls: seq<Event>)
    requires forall i :: 0 <= i < |calls| ==> calls[i].Merged? && calls[i].call.dir == d
    ensures var events := calls + [MarkedCompleted(d)];
      && (forall i :: 0 <= i < |events| && events[i].MarkedCompleted? ==> i == |events| - 1)
      && (forall i :: 0 <= i < |events| ==> EventDir(events[i]) == d)
  {
  }

  lemma FailedGroup(d: string, o: Oracles, groups: seq<seq<string>>, i: nat)
    requires GroupSamples(d, o.gzFiles(d)).Success? && groups == RunGroups(d, o)
    requires i < |groups| && MergeFiles(d, groups[i]).Failure?
    ensures !RunSucceeds(d, o)
  {
  }

  lemma SucceededGroups(d: string, o: Oracles, groups: seq<seq<string>>)
    requires o.md5Status(d) == 0 && GroupSamples(d, o.gzFiles(d)).Success? && groups == RunGroups(d, o)
    requires forall i :: 0 <= i < |groups| ==> MergeFiles(d, groups[i]).Success?
    ensures RunSucceeds(d, o)
  {
  }

  lemma MarkAfterCalls(d: string, o: Oracles, calls: seq<Event>)
    requires RunSucceeds(d, o)
    requires calls == MergeGroups(d, RunGroups(d, o)).0
    ensures MarkPreceded(calls + [MarkedCompleted(d)], |calls|, o)
  {
    assert (calls + [MarkedCompleted(d)])[..|calls|] == calls;
  }

  lemma MarkedSuccess(d: string, calls: seq<Event>, store: string)
    requires Marked(calls) == []
    ensures Marked(calls + [MarkedCompleted(d)]) == [d]
    ensures AppendAll(store, [d]) == UpdateCompleted(store, d)
  {
    MarkedConcat(calls, [MarkedCompleted(d)]);
    assert Marked([MarkedCompleted(d)]) == [d];
  }

  lemma {:induction false} NoMarksInCalls(calls: seq<Event>)
    requires forall i :: 0 <= i < |calls| ==> calls[i].Merged?
    ensures Marked(calls) == []
  {
    if calls != [] {
      NoMarksInCalls(calls[1..]);
    }
  }

  /** The run the pass stops at: one that is writable, checked out and yet does not succeed. */
  ghost predicate Aborts(d: string, o: Oracles)
  {
    o.md5Status(d) == 0 && !RunSucceeds(d, o)
  }

  /** The index of the first run the pass stops at, or `|ds|` when there is none. */
  ghost function FirstAbort(ds: seq<string>, o: Oracles): (k: nat)
    ensures k <= |ds|
    ensures forall j :: 0 <= j < k ==> !Aborts(ds[j], o)
    ensures k < |ds| ==> Aborts(ds[k], o)
  {
    if ds == [] then 0
    else if Aborts(ds[0], o) then 0
    else 1 + FirstAbort(ds[1..], o)
  }

  /** `for directory in writable_directories` (251-268): the runs in order, each
      reading the store the previous one left, until one raises. */
  function ProcessRuns(ds: seq<string>, store: string, o: Oracles): (r: Pass)
    ensures |store| <= |r.store| && r.store[..|store|] == store
  {
    if ds == [] then Pass([], store, None)
    else
      var r := ProcessRun(ds[0], store, o);
      if r.abort.Some? then r
      else
        var rest := ProcessRuns(ds[1..], r.store, o);
        Pass(r.events + rest.events, rest.store, rest.abort)
  }

  /** What the loop over the writable runs does. */
  ghost predicate RunsFacts(ds: seq<string>, store: string, o: Oracles, r: Pass)
  {
    RunsScope(ds, store, r) && RunsMarks(ds, o, Marked(r.events), r.abort)
  }

  /** Every event is about one of the runs, and the store only gains the marked runs' lines. */
  ghost predicate RunsScope(ds: seq<string>, store: string, r: Pass)
  {
    && (forall i :: 0 <= i < |r.events| ==> EventDir(r.events[i]) in ds)
    && NoNotices(r.events)
    && r.store == AppendAll(store, Marked(r.events))
  }

  /** The loop stops at the first aborting run, and marks exactly the succeeding runs before it. */
  ghost predicate RunsMarks(ds: seq<string>, o: Oracles, marks: seq<string>, abort: Option<Abort>)
  {
    && (abort.None? <==> FirstAbort(ds, o) == |ds|)
    && (abort.Some? ==> FirstAbort(ds, o) < |ds| && AbortDir(abort.value) == ds[FirstAbort(ds, o)])
    && (forall d :: d in marks <==> d in ds[..FirstAbort(ds, o)] && RunSucceeds(d, o))
  }

  lemma {:induction false} ProcessRunsFacts(ds: seq<string>, store: string, o: Oracles)
    ensures RunsFacts(ds, store, o, ProcessRuns(ds, store, o))
  {
    if ds != [] {
      var r := ProcessRun(ds[0], store, o);
      ProcessRunFacts(ds[0], store, o);
      if r.abort.Some? {
        RunsStepAbort(ds, store, o, r);
      } else {
        ProcessRunsFacts(ds[1..], r.store, o);
        RunsStep(ds, store, o, r, ProcessRuns(ds[1..], r.store, o));
      }
    }
  }

  lemma RunsStepAbort(ds: seq<string>, store: string, o: Oracles, r: Pass)
    requires ds != [] && RunFacts(ds[0], store, o, r, RunSucceeds(ds[0], o)) && r.abort.Some?
    ensures RunsFacts(ds, store, o, r)
  {
    assert Aborts(ds[0], o);
    assert FirstAbort(ds, o) == 0;
    assert Marked(r.events) == [];
  }

  lemma RunsStep(ds: seq<string>, store: string, o: Oracles, r: Pass, rest: Pass)
    requires ds != [] && RunFacts(ds[0], store, o, r, RunSucceeds(ds[0], o)) && r.abort.None?
    requires RunsFacts(ds[1..], r.store, o, rest)
    ensures RunsFacts(ds, store, o, Pass(r.events + rest.events, rest.store, rest.abort))
  {
    MarkedConcat(r.events, rest.events);
    RunsStepScope(ds, store, r, rest);
    RunsStepMarks(ds, o, Marked(r.events), rest);
  }

  lemma RunsStepScope(ds: seq<string>, store: string, r: Pass, rest: Pass)
    requires ds != [] && (forall i :: 0 <= i < |r.events| ==> EventDir(r.events[i]) == ds[0])
    requires NoNotices(r.events)
    requires r.store == AppendAll(store, Marked(r.events))
    requires RunsScope(ds[1..], r.store, rest)
    ensures RunsScope(ds, store, Pass(r.events + rest.events, rest.store, rest.abort))
  {
    MarkedConcat(r.events, rest.events);
    AppendAllConcat(store, Marked(r.events), Marked(rest.events));
    var events := r.events + rest.events;
    forall i | 0 <= i < |events| ensures EventDir(events[i]) in ds && !events[i].Unwritable? {
      if i >= |r.events| {
        assert events[i] == rest.events[i - |r.events|];
        assert EventDir(events[i]) in ds[1..];
      }
    }
  }

  lemma RunsStepMarks(ds: seq<string>, o: Oracles, marks: seq<string>, rest: Pass)
    requires ds != [] && !Aborts(ds[0], o)
    requires marks == (if RunSucceeds(ds[0], o) then [ds[0]] else [])
    requires RunsMarks(ds[1..], o, Marked(rest.events), rest.abort)
    ensures RunsMarks(ds, o, marks + Marked(rest.events), rest.abort)
  {
    var k := FirstAbort(ds[1..], o);
    assert FirstAbort(ds, o) == 1 + k;
    StepMarks(ds, k, marks, Marked(rest.events), rest.abort, d => RunSucceeds(d, o));
  }

  /** `RunsMarks` one run further, over any success test: the abort index moves
      by one, and the first run's marks join the rest's. */
  lemma StepMarks(ds: seq<string>, k: nat, marks: seq<string>, rest: seq<string>, abort: Option<Abort>,
                  succ: string -> bool)
    requires ds != [] && k < |ds|
    requires marks == (if succ(ds[0]) then [ds[0]] else [])
    requires abort.None? <==> k == |ds[1..]|
    requires abort.Some? ==> k < |ds[1..]| && AbortDir(abort.value) == ds[1..][k]
    requires forall d :: d in rest <==> d in ds[1..][..k] && succ(d)
    ensures abort.None? <==> 1 + k == |ds|
    ensures abort.Some? ==> 1 + k < |ds| && AbortDir(abort.value) == ds[1 + k]
    ensures forall d :: d in marks + rest <==> d in ds[..1 + k] && succ(d)
  {
    assert ds[..1 + k] == [ds[0]] + ds[1..][..k];
  }

  /** Each completion mark comes right after the merge calls of its run's groups. */
  ghost predicate MarksPreceded(events: seq<Event>, o: Oracles)
  {
    MarksAfter(events, RunCalls(o))
  }

  predicate MarksAfter(events: seq<Event>, calls: string -> Option<seq<Event>>)
  {
    forall i :: 0 <= i < |events| && events[i].MarkedCompleted? ==> MarkAfter(events, i, calls)
  }

  /** Nothing more happens to a run once it is marked completed. */
  ghost predicate MarksFinal(events: seq<Event>)
  {
    forall i, j :: 0 <= i < j < |events| && events[i].MarkedCompleted? ==> EventDir(events[j]) != events[i].dir
  }

  lemma CallsBeforeExtend(a: seq<Event>, b: seq<Event>, i: nat, calls: seq<Event>)
    requires CallsBefore(a, i, calls)
    ensures CallsBefore(a + b, i, calls)
  {
    assert (a + b)[i - |calls| .. i] == a[i - |calls| .. i];
  }

  lemma CallsBeforeShift(a: seq<Event>, b: seq<Event>, i: nat, calls: seq<Event>)
    requires CallsBefore(b, i, calls)
    ensures CallsBefore(a + b, |a| + i, calls)
  {
    assert (a + b)[|a| + i - |calls| .. |a| + i] == b[i - |calls| .. i];
  }

  lemma MarkAfterExtend(a: seq<Event>, b: seq<Event>, i: nat, calls: string -> Option<seq<Event>>)
    requires i < |a| && a[i].MarkedCompleted? && MarkAfter(a, i, calls)
    ensures MarkAfter(a + b, i, calls)
  {
    assert (a + b)[i] == a[i];
    CallsBeforeExtend(a, b, i, calls(a[i].dir).value);
  }

  lemma MarkAfterShift(a: seq<Event>, b: seq<Event>, i: nat, calls: string -> Option<seq<Event>>)
    requires i < |b| && b[i].MarkedCompleted? && MarkAfter(b, i, calls)
    ensures MarkAfter(a + b, |a| + i, calls)
  {
    assert (a + b)[|a| + i] == b[i];
    CallsBeforeShift(a, b, i, calls(b[i].dir).value);
  }

  lemma MarksAfterConcat(a: seq<Event>, b: seq<Event>, calls: string -> Option<seq<Event>>)
    requires MarksAfter(a, calls) && MarksAfter(b, calls)
    ensures MarksAfter(a + b, calls)
  {
    forall i | 0 <= i < |a + b| && (a + b)[i].MarkedCompleted? ensures MarkAfter(a + b, i, calls) {
      if i < |a| {
        MarkAfterExtend(a, b, i, calls);
      } else {
        assert (a + b)[i] == b[i - |a|];
        MarkAfterShift(a, b, i - |a|, calls);
      }
    }
  }

  lemma RunMarksPreceded(d: string, store: string, o: Oracles, r: Pass)
    requires RunFacts(d, store, o, r, RunSucceeds(d, o))
    ensures MarksPreceded(r.events, o)
  {
  }

  lemma {:induction false} RunsMarksPreceded(ds: seq<string>, store: string, o: Oracles)
    ensures MarksPreceded(ProcessRuns(ds, store, o).events, o)
  {
    if ds == [] {
    } else {
      var r := ProcessRun(ds[0], store, o);
      ProcessRunFacts(ds[0], store, o);
      RunMarksPreceded(ds[0], store, o, r);
      if r.abort.None? {
        RunsMarksPreceded(ds[1..], r.store, o);
        MarksAfterConcat(r.events, ProcessRuns(ds[1..], r.store, o).events, RunCalls(o));
      }
    }
  }

  lemma MarksFinalStep(d: string, ds: seq<string>, a: seq<Event>, b: seq<Event>)
    requires forall i :: 0 <= i < |a| ==> EventDir(a[i]) == d
    requires forall i :: 0 <= i < |a| && a[i].MarkedCompleted? ==> i == |a| - 1
    requires forall i :: 0 <= i < |b| ==> EventDir(b[i]) in ds
    requires d !in ds
    requires MarksFinal(b)
    ensures MarksFinal(a + b)
  {
    var e := a + b;
    forall i, j | 0 <= i < j < |e| && e[i].MarkedCompleted? ensures EventDir(e[j]) != e[i].dir {
      if i < |a| {
        assert e[i] == a[i];
        assert j >= |a|;
        assert e[j] == b[j - |a|];
      } else {
        assert e[i] == b[i - |a|] && e[j] == b[j - |a|];
      }
    }
  }

  /** With distinct runs, the loop never touches a run again after marking it. */
  lemma {:induction false} RunsMarksFinal(ds: seq<string>, store: string, o: Oracles)
    requires Distinct(ds)
    ensures MarksFinal(ProcessRuns(ds, store, o).events)
  {
    if ds != [] {
      var r := ProcessRun(ds[0], store, o);
      ProcessRunFacts(ds[0], store, o);
      if r.abort.None? {
        var rest := ProcessRuns(ds[1..], r.store, o);
        assert Distinct(ds[1..]) by {
          forall i, j | 0 <= i < j < |ds[1..]| ensures ds[1..][i] != ds[1..][j] {
            assert ds[1..][i] == ds[i + 1] && ds[1..][j] == ds[j + 1];
          }
        }
        RunsMarksFinal(ds[1..], r.store, o);
        ProcessRunsFacts(ds[1..], r.store, o);
        assert ds[0] !in ds[1..] by {
          forall k | 0 <= k < |ds[1..]| ensures ds[1..][k] != ds[0] {
            assert ds[1..][k] == ds[k + 1];
          }
        }
        MarksFinalStep(ds[0], ds[1..], r.events, rest.events);
      }
    }
  }

  /** The unwritable runs' notices (244-248), one mail and log line each, in order. */
  function Notices(ds: seq<string>): (r: seq<Event>)
    ensures |r| == |ds|
  {
    if ds == [] then [] else [Unwritable(ds[0])] + Notices(ds[1..])
  }

  lemma {:induction false} NoticesFacts(ds: seq<string>)
    ensures forall i :: 0 <= i < |Notices(ds)| ==> Notices(ds)[i] == Unwritable(ds[i])
    ensures Marked(Notices(ds)) == []
  {
    if ds != [] {
      NoticesFacts(ds[1..]);
      var r := Notices(ds);
      assert forall i :: 1 <= i < |r| ==> r[i] == Notices(ds[1..])[i - 1];
    }
  }

  /** The runs `main` considers: listed, not hidden, and not read back from the store (236-238). */
  function Candidates(inbox: string, listing: seq<Entry>, store: string): seq<string>
  {
    NotCompleted(ListDirNoHidden(inbox, listing), GetCompleted(store))
  }

  /** One pass of `main` from `completed = GetCompleted(Inbox)` (236) to the end of its loop (268). */
  function Reconcile(inbox: string, listing: seq<Entry>, store: string, o: Oracles): (r: Pass)
    ensures |store| <= |r.store| && r.store[..|store|] == store
  {
    var cs := Candidates(inbox, listing, store);
    var r := ProcessRuns(WithPermission(cs, o.permitted, true), store, o);
    Pass(Notices(WithPermission(cs, o.permitted, false)) + r.events, r.store, r.abort)
  }

  /** The store only ever gains lines, one per run marked, in marking order; every
      event is about a listed, non-hidden run that was not already completed; the
      unwritable notices go out for exactly the unwritable candidates; and
      everything else happens to writable runs only. */
  lemma ReconcileScope(inbox: string, listing: seq<Entry>, store: string, o: Oracles)
    ensures var r := Reconcile(inbox, listing, store, o);
      && r.store == AppendAll(store, Marked(r.events))
      && (forall i :: 0 <= i < |r.events| ==>
            EventDir(r.events[i]) in ListDirNoHidden(inbox, listing) &&
            EventDir(r.events[i]) !in GetCompleted(store))
      && (forall d :: Unwritable(d) in r.events <==>
            d in ListDirNoHidden(inbox, listing) && d !in GetCompleted(store) && !o.permitted(d))
      && (forall i :: 0 <= i < |r.events| && !r.events[i].Unwritable? ==> o.permitted(EventDir(r.events[i])))
  {
    var cs := Candidates(inbox, listing, store);
    var w := WithPermission(cs, o.permitted, true);
    var u := WithPermission(cs, o.permitted, false);
    var p := ProcessRuns(w, store, o);
    ProcessRunsFacts(w, store, o);
    PermissionSplit(cs, o.permitted);
    NoticesFacts(u);
    var n := Notices(u);
    MarkedConcat(n, p.events);
    assert [] + Marked(p.events) == Marked(p.events);
    assert Reconcile(inbox, listing, store, o) == Pass(n + p.events, p.store, p.abort);
    PassScope(cs, o.permitted, u, w, n, p.events);
  }

  lemma PassScope(cs: seq<string>, permitted: string -> bool, u: seq<string>, w: seq<string>,
                  n: seq<Event>, e: seq<Event>)
    requires forall d :: d in u <==> d in cs && !permitted(d)
    requires forall d :: d in w <==> d in cs && permitted(d)
    requires |n| == |u| && forall i :: 0 <= i < |n| ==> n[i] == Unwritable(u[i])
    requires (forall i :: 0 <= i < |e| ==> EventDir(e[i]) in w) && NoNotices(e)
    ensures forall i :: 0 <= i < |n + e| ==> EventDir((n + e)[i]) in cs
    ensures forall i :: 0 <= i < |n + e| && !(n + e)[i].Unwritable? ==> permitted(EventDir((n + e)[i]))
    ensures forall d :: Unwritable(d) in n + e <==> d in u
  {
    var all := n + e;
    forall i | 0 <= i < |all|
      ensures EventDir(all[i]) in cs
      ensures !all[i].Unwritable? ==> permitted(EventDir(all[i]))
    {
      if i < |n| {
        assert all[i] == Unwritable(u[i]);
        assert u[i] in u;
      } else {
        assert all[i] == e[i - |n|];
      }
    }
    assert forall j :: |n| <= j < |all| ==> all[j] == e[j - |n|];
    forall d ensures Unwritable(d) in all <==> d in u {
      if Unwritable(d) in all {
        var i :| 0 <= i < |all| && all[i] == Unwritable(d);
        assert i < |n|;
      }
      if d in u {
        var i :| 0 <= i < |u| && u[i] == d;
        assert all[i] == Unwritable(d);
      }
    }
  }

  /** The pass stops exactly at the first writable candidate that is checked out
      yet raises, and marks exactly the succeeding writable candidates before it;
      a pass that does not stop marks every writable candidate that succeeds. */
  lemma ReconcileMarks(inbox: string, listing: seq<Entry>, store: string, o: Oracles)
    ensures var r := Reconcile(inbox, listing, store, o);
      var w := WithPermission(Candidates(inbox, listing, store), o.permitted, true);
      && (r.abort.None? <==> FirstAbort(w, o) == |w|)
      && (r.abort.Some? ==> FirstAbort(w, o) < |w| && AbortDir(r.abort.value) == w[FirstAbort(w, o)])
      && (forall d :: d in Marked(r.events) <==> d in w[..FirstAbort(w, o)] && RunSucceeds(d, o))
      && (r.abort.None? ==> forall d :: d in Marked(r.events) <==>
            d in ListDirNoHidden(inbox, listing) && d !in GetCompleted(store) && o.permitted(d) && RunSucceeds(d, o))
  {
    var cs := Candidates(inbox, listing, store);
    var w := WithPermission(cs, o.permitted, true);
    var u := WithPermission(cs, o.permitted, false);
    var p := ProcessRuns(w, store, o);
    ProcessRunsFacts(w, store, o);
    PermissionSplit(cs, o.permitted);
    NoticesFacts(u);
    MarkedConcat(Notices(u), p.events);
    assert w[..|w|] == w;
  }

  /** Each completion mark of a pass comes right after the run's merge calls, one
      per group, read-1 groups first; and when the listing names no run twice,
      nothing more happens to a run after its mark. */
  lemma ReconcileOrder(inbox: string, listing: seq<Entry>, store: string, o: Oracles)
    ensures MarksPreceded(Reconcile(inbox, listing, store, o).events, o)
    ensures Distinct(ListDirNoHidden(inbox, listing)) ==> MarksFinal(Reconcile(inbox, listing, store, o).events)
  {
    var cs := Candidates(inbox, listing, store);
    var w := WithPermission(cs, o.permitted, true);
    var u := WithPermission(cs, o.permitted, false);
    var p := ProcessRuns(w, store, o);
    var n := Notices(u);
    NoticesFacts(u);
    RunsMarksPreceded(w, store, o);
    assert MarksPreceded(n, o);
    MarksAfterConcat(n, p.events, RunCalls(o));
    if Distinct(ListDirNoHidden(inbox, listing)) {
      NotCompletedDistinct(ListDirNoHidden(inbox, listing), GetCompleted(store));
      WithPermissionDistinct(cs, o.permitted, true);
      RunsMarksFinal(w, store, o);
      NoticesFirst(n, p.events);
    }
  }

  lemma NoticesFirst(n: seq<Event>, e: seq<Event>)
    requires forall i :: 0 <= i < |n| ==> n[i].Unwritable?
    requires MarksFinal(e)
    ensures MarksFinal(n + e)
  {
    var all := n + e;
    forall i, j | 0 <= i < j < |all| && all[i].MarkedCompleted? ensures EventDir(all[j]) != all[i].dir {
      assert i >= |n|;
      assert all[i] == e[i - |n|] && all[j] == e[j - |n|];
    }
  }

  lemma {:induction false} NotCompletedDistinct(dirs: seq<string>, completed: seq<string>)
    requires Distinct(dirs)
    ensures Distinct(NotCompleted(dirs, completed))
  {
    if dirs != [] {
      DistinctTail(dirs);
      NotCompletedDistinct(dirs[1..], completed);
      DistinctCons(dirs[0], NotCompleted(dirs[1..], completed));
    }
  }

  lemma {:induction false} WithPermissionDistinct(dirs: seq<string>, permitted: string -> bool, flag: bool)
    requires Distinct(dirs)
    ensures Distinct(WithPermission(dirs, permitted, flag))
  {
    if dirs != [] {
      DistinctTail(dirs);
      WithPermissionDistinct(dirs[1..], permitted, flag);
      PermissionSplit(dirs[1..], permitted);
      DistinctCons(dirs[0], WithPermission(dirs[1..], permitted, flag));
    }
  }

  lemma DistinctTail(s: seq<string>)
    requires s != [] && Distinct(s)
    ensures Distinct(s[1..]) && s[0] !in s[1..]
  {
    forall i, j | 0 <= i < j < |s[1..]| ensures s[1..][i] != s[1..][j] {
      assert s[1..][i] == s[i + 1] && s[1..][j] == s[j + 1];
    }
    forall k | 0 <= k < |s[1..]| ensures s[1..][k] != s[0] {
      assert s[1..][k] == s[k + 1];
    }
  }

  lemma DistinctCons(x: string, s: seq<string>)
    requires Distinct(s)
    ensures x !in s ==> Distinct([x] + s)
  {
    if x !in s {
      var t := [x] + s;
      forall i, j | 0 <= i < j < |t| ensures t[i] != t[j] {
        assert t[j] == s[j - 1];
        if i > 0 {
          assert t[i] == s[i - 1];
        }
      }
    }
  }

  /** A later pass on the store a pass wrote does nothing at all to the runs the
      first pass marked completed, whatever the inbox then lists and whatever the
      external checks then answer, as long as the store ended in a line feed and
      the marked run paths are single lines without surrounding whitespace. */
  lemma SecondPassSkipsMarked(inbox: string, listing: seq<Entry>, store: string, o: Oracles,
                              listing2: seq<Entry>, o2: Oracles)
    requires LineTerminated(store)
    requires forall d :: d in Marked(Reconcile(inbox, listing, store, o).events) ==> Clean(d)
    ensures var first := Reconcile(inbox, listing, store, o);
      var second := Reconcile(inbox, listing2, first.store, o2);
      forall i :: 0 <= i < |second.events| ==> EventDir(second.events[i]) !in Marked(first.events)
  {
    var first := Reconcile(inbox, listing, store, o);
    var second := Reconcile(inbox, listing2, first.store, o2);
    ReconcileScope(inbox, listing, store, o);
    ReconcileScope(inbox, listing2, first.store, o2);
    SkipsMarked(store, Marked(first.events), first.store, second.events);
  }

  /** `SecondPassSkipsMarked` over the facts `ReconcileScope` gives for both passes. */
  lemma SkipsMarked(store: string, marks: seq<string>, next: string, later: seq<Event>)
    requires LineTerminated(store)
    requires forall d :: d in marks ==> Clean(d)
    requires next == AppendAll(store, marks)
    requires forall i :: 0 <= i < |later| ==> EventDir(later[i]) !in GetCompleted(next)
    ensures forall i :: 0 <= i < |later| ==> EventDir(later[i]) !in marks
  {
    assert forall i :: 0 <= i < |marks| ==> marks[i] in marks;
    MarksReadBack(store, marks);
  }

  lemma MarksReadBack(store: string, marks: seq<string>)
    requires LineTerminated(store)
    requires forall i :: 0 <= i < |marks| ==> Clean(marks[i])
    ensures forall d :: d in marks ==> d in GetCompleted(AppendAll(store, marks))
  {
    ReadBackAll(store, marks);
  }

  /** A checked-out run with no `.gz` names is marked completed with no merge call. */
  lemma EmptyRunCompletes(d: string, store: string, o: Oracles)
    requires o.md5Status(d) == 0 && o.gzFiles(d) == []
    ensures ProcessRun(d, store, o) == Pass([MarkedCompleted(d)], UpdateCompleted(store, d), None)
  {
    assert SampleBuckets([]) == Success([]);
    assert SplitReads([]) == Groups([], []);
    assert RunGroups(d, o) == [];
    assert MergeGroups(d, []) == ([], None);
  }

  /** A sample with only read-1 or only read-2 names gives an empty group, on
      which line 142 raises: the pass stops and the run is not marked. */
  lemma OneSidedSampleAborts(d: string, store: string, o: Oracles, k: string)
    requires o.md5Status(d) == 0 && GroupSamples(d, o.gzFiles(d)).Success?
    requires KeyOccurs(o.gzFiles(d), k)
    requires Select(o.gzFiles(d), k, true) == [] || Select(o.gzFiles(d), k, false) == []
    ensures ProcessRun(d, store, o).abort.Some?
    ensures Marked(ProcessRun(d, store, o).events) == []
  {
    var files := o.gzFiles(d);
    GroupSamplesSpec(d, files);
    var g := GroupSamples(d, files).value[d];
    var keys :| GroupedBy(g, files, keys);
    var i :| 0 <= i < |keys| && keys[i] == k;
    var groups := RunGroups(d, o);
    if Select(files, k, true) == [] {
      assert groups[i] == g.read1[i] == [];
      FailedGroup(d, o, groups, i);
    } else {
      assert groups[|g.read1| + i] == g.read2[i] == [];
      FailedGroup(d, o, groups, |g.read1| + i);
    }
    ProcessRunFacts(d, store, o);
  }
}

=== FILE: text.dfy ===
/** Character classes and small string operations the scripts rely on:
    Python 2 `str.strip()` and `os.path.join`. */
module Text {

  /** The characters Python 2's `str.strip()` removes by default (`string.whitespace`). */
  predicate IsSpace(c: char)
  {
    c == ' ' || c == '\t' || c == '\n' || c == '\r' || c == '\U{000B}' || c == '\U{000C}'
  }

  predicate IsDigit(c: char)
  {
    '0' <= c <= '9'
  }

  predicate EndsWith(s: string, suffix: string)
  {
    |suffix| <= |s| && s[|s| - |suffix|..] == suffix
  }

  /** Removes leading whitespace. */
  function TrimStart(s: string): string
    decreases |s|
  {
    if s != [] && IsSpace(s[0]) then TrimStart(s[1..]) else s
  }

  /** Removes trailing whitespace. */
  function TrimEnd(s: string): string
    decreases |s|
  {
    if s != [] && IsSpace(s[|s| - 1]) then TrimEnd(s[..|s| - 1]) else s
  }

  /** A string that `Strip` leaves alone: no whitespace at either end. */
  predicate Unpadded(s: string)
  {
    s == [] || (!IsSpace(s[0]) && !IsSpace(s[|s| - 1]))
  }

  /** Python 2 `str.strip()` with no argument. */
  function Strip(s: string): string
  {
    TrimEnd(TrimStart(s))
  }

  /** `TrimStart` drops a whitespace-only prefix and stops at the first other character. */
  lemma {:induction false} TrimStartFacts(s: string)
    ensures |TrimStart(s)| <= |s| && TrimStart(s) == s[|s| - |TrimStart(s)|..]
    ensures forall i :: 0 <= i < |s| - |TrimStart(s)| ==> IsSpace(s[i])
    ensures TrimStart(s) == [] || !IsSpace(TrimStart(s)[0])
    decreases |s|
  {
    if s != [] && IsSpace(s[0]) {
      TrimStartFacts(s[1..]);
    }
  }

  /** `TrimEnd` drops a whitespace-only suffix and stops at the last other character. */
  lemma {:induction false} TrimEndFacts(s: string)
    ensures |TrimEnd(s)| <= |s| && TrimEnd(s) == s[..|TrimEnd(s)|]
    ensures forall i :: |TrimEnd(s)| <= i < |s| ==> IsSpace(s[i])
    ensures TrimEnd(s) == [] || !IsSpace(TrimEnd(s)[|TrimEnd(s)| - 1])
    decreases |s|
  {
    if s != [] && IsSpace(s[|s| - 1]) {
      TrimEndFacts(s[..|s| - 1]);
    }
  }

  /** The stripped text is the input with a whitespace-only prefix and suffix
      removed; it has no whitespace at either end, and it is the input itself
      when there was nothing to strip. */
  lemma StripFacts(s: string)
    ensures exists a, b :: 0 <= a <= b <= |s| && Strip(s) == s[a..b] &&
              (forall i :: 0 <= i < a ==> IsSpace(s[i])) && (forall i :: b <= i < |s| ==> IsSpace(s[i]))
    ensures Unpadded(Strip(s))
    ensures |Strip(s)| <= |s|
    ensures Unpadded(s) ==> Strip(s) == s
  {
    var t := TrimStart(s);
    TrimStartFacts(s);
    TrimEndFacts(t);
    var a := |s| - |t|;
    var b := a + |TrimEnd(t)|;
    assert Strip(s) == s[a..b];
    assert forall i :: b <= i < |s| ==> s[i] == t[i - a];
    if t != [] && TrimEnd(t) != [] {
      assert TrimEnd(t)[0] == t[0];
    }
  }

  /** `posixpath.join(a, b)` for one component. */
  function Join(a: string, b: string): (r: string)
    ensures EndsWith(r, b)
    ensures b != [] && b[0] != '/' ==> |r| >= |a| && r[..|a|] == a
    ensures b != [] && b[0] != '/' ==> r == a + b || r == a + "/" + b
    ensures b != [] && b[0] == '/' ==> r == b
    ensures b != [] && b[0] != '/' ==> (r == a + b <==> a == [] || a[|a| - 1] == '/')
  {
    if b != [] && b[0] == '/' then b
    else if a == [] || a[|a| - 1] == '/' then a + b
    else a + "/" + b
  }
}

=== FILE: tracker.dfy ===
/** The `.completed` store (run_combiner.py:71-85): one run directory per line,
    read back with `line.strip()` and extended by appending `name + "\n"`. */
module Tracker {
  import opened Text

  /** The lines `for line in f` yields (75-76), each without its line feed: Python
      splits after each feed and keeps a last line that has none. Built one
      character at a time: a feed starts a new line, any other character joins
      the line after it. */
  function Lines(text: string): seq<string>
    decreases |text|
  {
    if text == [] then []
    else
      var rest := Lines(text[1..]);
      if text[0] == '\n' then [""] + rest
      else if rest == [] then [[text[0]]]
      else [[text[0]] + rest[0]] + rest[1..]
  }

  function StripAll(lines: seq<string>): (r: seq<string>)
    ensures |r| == |lines|
    ensures forall i :: 0 <= i < |r| ==> Unpadded(r[i])
  {
    if lines == [] then [] else StripFacts(lines[0]); [Strip(lines[0])] + StripAll(lines[1..])
  }

  /** `[line.strip() for line in f]` over the store's text (75-76). The line feed
      is whitespace, so stripping a line without it gives the same entry. */
  function GetCompleted(store: string): (r: seq<string>)
    ensures forall i :: 0 <= i < |r| ==> Unpadded(r[i])
  {
    StripAll(Lines(store))
  }

  lemma {:induction false} LinesHaveNoNewline(text: string)
    ensures forall i :: 0 <= i < |Lines(text)| ==> '\n' !in Lines(text)[i]
    ensures text == [] <==> Lines(text) == []
    decreases |text|
  {
    if text != [] {
      var rest := Lines(text[1..]);
      LinesHaveNoNewline(text[1..]);
      if text[0] == '\n' {
        assert forall i :: 1 <= i < |Lines(text)| ==> Lines(text)[i] == rest[i - 1];
      } else if rest != [] {
        assert '\n' !in [text[0]] + rest[0];
        assert forall i :: 1 <= i < |Lines(text)| ==> Lines(text)[i] == rest[i];
      }
    }
  }

  lemma {:induction false} StripAllEntries(lines: seq<string>)
    requires forall i :: 0 <= i < |lines| ==> '\n' !in lines[i]
    ensures |StripAll(lines)| == |lines|
    ensures forall i :: 0 <= i < |lines| ==>
              StripAll(lines)[i] == Strip(lines[i]) && Unpadded(StripAll(lines)[i]) && '\n' !in StripAll(lines)[i]
  {
    if lines != [] {
      StripAllEntries(lines[1..]);
      StripFacts(lines[0]);
      StripKeepsNoNewline(lines[0]);
    }
  }

  /** Every entry read back is a single stripped line, and only an empty store reads back empty. */
  lemma CompletedEntries(store: string)
    ensures forall i :: 0 <= i < |GetCompleted(store)| ==>
              Unpadded(GetCompleted(store)[i]) && '\n' !in GetCompleted(store)[i]
    ensures store == [] <==> GetCompleted(store) == []
  {
    LinesHaveNoNewline(store);
    StripAllEntries(Lines(store));
  }

  lemma StripKeepsNoNewline(s: string)
    requires '\n' !in s
    ensures '\n' !in Strip(s)
  {
    var t := TrimStart(s);
    TrimStartFacts(s);
    assert forall c :: c in t ==> c in s;
    var r := TrimEnd(t);
    TrimEndFacts(t);
    assert forall c :: c in r ==> c in t;
  }

  /** `f.write(completed_dir + "\n")` in append mode (84-85): the old contents are
      kept as they are and the new text ends in a line feed. */
  function UpdateCompleted(store: string, dir: string): (r: string)
    ensures |r| == |store| + |dir| + 1 && r[..|store|] == store
    ensures r[|store|..|r| - 1] == dir
    ensures r[|r| - 1] == '\n'
  {
    store + dir + "\n"
  }

  /** A store whose last line is terminated, so an append starts a new line. */
  predicate LineTerminated(store: string)
  {
    store == [] || store[|store| - 1] == '\n'
  }

  /** A name that reads back from the store unchanged: one line, nothing to strip. */
  predicate Clean(dir: string)
  {
    '\n' !in dir && Strip(dir) == dir
  }

  /** One line with its feed reads back as that line. */
  lemma {:induction false} LinesOfLine(line: string)
    requires '\n' !in line
    ensures Lines(line + "\n") == [line]
    decreases |line|
  {
    if line != [] {
      assert (line + "\n")[1..] == line[1..] + "\n";
      LinesOfLine(line[1..]);
      assert [line[0]] + line[1..] == line;
    }
  }

  /** `LinesAppend` with the appended text kept in one piece. */
  lemma {:induction false} LinesAppendLine(text: string, line: string, tail: string)
    requires LineTerminated(text)
    requires '\n' !in line && tail == line + "\n"
    ensures Lines(text + tail) == Lines(text) + [line]
    decreases |text|
  {
    if text == [] {
      assert text + tail == tail;
      LinesOfLine(line);
    } else {
      var t := text + tail;
      assert t[0] == text[0] && t[1..] == text[1..] + tail;
      assert LineTerminated(text[1..]);
      LinesAppendLine(text[1..], line, tail);
      LinesHaveNoNewline(text[1..]);
      LinesAppendStep(text[0], Lines(text[1..]), line);
    }
  }

  /** Putting one character in front of a text, before and after `line` is added at its end. */
  lemma LinesAppendStep(c: char, before: seq<string>, line: string)
    requires c != '\n' ==> before != []
    ensures var after := before + [line];
      && (c == '\n' ==> [""] + after == ([""] + before) + [line])
      && (c != '\n' ==> [[c] + after[0]] + after[1..] == ([[c] + before[0]] + before[1..]) + [line])
  {
    var after := before + [line];
    if c != '\n' {
      assert after[0] == before[0];
      assert after[1..] == before[1..] + [line];
    }
  }

  /** Appending a line to a terminated text adds exactly that line. */
  lemma LinesAppend(text: string, line: string)
    requires LineTerminated(text)
    requires '\n' !in line
    ensures Lines(text + line + "\n") == Lines(text) + [line]
  {
    var tail := line + "\n";
    assert text + line + "\n" == text + tail;
    LinesAppendLine(text, line, tail);
  }

  lemma {:induction false} StripAllAppend(a: seq<string>, b: seq<string>)
    ensures StripAll(a + b) == StripAll(a) + StripAll(b)
  {
    if a == [] {
      assert a + b == b;
    } else {
      assert (a + b)[1..] == a[1..] + b;
      StripAllAppend(a[1..], b);
    }
  }

  /** Appending a clean name to a terminated store adds exactly that entry at the
      end and leaves every earlier entry as it was. */
  lemma ReadBackAppended(store: string, dir: string)
    requires LineTerminated(store)
    requires Clean(dir)
    ensures GetCompleted(UpdateCompleted(store, dir)) == GetCompleted(store) + [dir]
  {
    LinesAppend(store, dir);
    StripAllAppend(Lines(store), [dir]);
    assert StripAll([dir]) == [Strip(dir)] + StripAll([]);
  }

  /** The store after appending each of `dirs` in turn. */
  function AppendAll(store: string, dirs: seq<string>): (r: string)
    ensures |store| <= |r| && r[..|store|] == store
    ensures LineTerminated(store) ==> LineTerminated(r)
    decreases |dirs|
  {
    if dirs == [] then store else AppendAll(UpdateCompleted(store, dirs[0]), dirs[1..])
  }

  lemma {:induction false} ReadBackAll(store: string, dirs: seq<string>)
    requires LineTerminated(store)
    requires forall i :: 0 <= i < |dirs| ==> Clean(dirs[i])
    ensures GetCompleted(AppendAll(store, dirs)) == GetCompleted(store) + dirs
    decreases |dirs|
  {
    if dirs == [] {
      assert GetCompleted(store) + dirs == GetCompleted(store);
    } else {
      var next := UpdateCompleted(store, dirs[0]);
      assert Clean(dirs[0]);
      ReadBackAppended(store, dirs[0]);
      assert LineTerminated(next);
      assert forall i :: 0 <= i < |dirs[1..]| ==> Clean(dirs[1..][i]);
      ReadBackAll(next, dirs[1..]);
      SeqConsAssoc(GetCompleted(store), dirs);
    }
  }

  lemma SeqConsAssoc(a: seq<string>, b: seq<string>)
    requires b != []
    ensures a + [b[0]] + b[1..] == a + b
  {
    assert [b[0]] + b[1..] == b;
  }

  /** A name with surrounding whitespace never reads back from any store, so
      `directory not in completed` (238) keeps letting such a run through. */
  lemma PaddedNeverCompleted(store: string, dir: string)
    requires !Unpadded(dir)
    ensures dir !in GetCompleted(store)
  {
    CompletedEntries(store);
  }

  /** Why the read-back lemmas ask for a terminated store: appending to a store
      whose last line has no feed glues the new name onto that line. */
  lemma UnterminatedStoreJoins()
    ensures !LineTerminated("a")
    ensures GetCompleted(UpdateCompleted("a", "b")) == ["ab"]
  {
    assert UpdateCompleted("a", "b") == ['a', 'b', '\n'];
    assert Lines(['\n']) == [""] by {
      assert ['\n'][1..] == [];
    }
    assert Lines(['b', '\n']) == ["b"] by {
      assert ['b', '\n'][1..] == ['\n'];
      assert [""][1..] == [] && ['b'] + [""][0] == "b";
    }
    assert Lines(['a', 'b', '\n']) == ["ab"] by {
      assert ['a', 'b', '\n'][1..] == ['b', '\n'];
      assert ["b"][1..] == [] && ['a'] + ["b"][0] == "ab";
    }
    assert StripAll(["ab"]) == [Strip("ab")] + StripAll([]);
    StripFacts("ab");
  }
}

=== FILE: wrappers.dfy ===
/** Failure-carrying result types shared by every module of the model. */
module Wrappers {

  /** A value that may be absent, as a Python `re.search` that returns `None`. */
  datatype Option<+T> = None | Some(value: T)

  /** The outcome of a step that either produces a value or raises an error. */
  datatype Result<+R, +E> = Success(value: R) | Failure(error: E)
}
